=== FILE: README.md ===
# TaskManager: a Dafny model of the task store, the account rules and the dashboard helpers

TaskManager is a multi-tenant task board written in ASP.NET Core MVC with a
jQuery dashboard. Every signed-in user belongs to one project (a team). The
session's claims carry the user id, the role ("Admin" or "User") and the
project id. Every task query and change is scoped by that project id.

This project models three parts of it:

- **The task API** (`Controllers/TasksController.cs`), in module `TasksController`.
  - The queries are pure functions over the tables: the dashboard values, the
    task list with its search, the workload statistics, and the two
    notification feeds.
  - The actions that change data are methods on the database context:
    `SaveTask`, `DeleteTask`, `UpdateProjectName` and `DeleteProject`.
- **Registration and login** (`Controllers/AccountController.cs`), in module
  `AccountController`.
  - Registration is a pure decision, `Decide`, followed by the inserts of
    `Register`.
  - Login is a lookup plus a password check.
  - `SignInUser` is the claim list of the session.
- **The dashboard script** (`wwwroot/js/taskManager.js`), in module `TaskManagerJs`:
  - the avatar colour `stringToColor`, written as a loop;
  - the body `saveTask` posts, and how the server's JSON reader binds it;
  - the priority badge, the notification line and the chart data.

The supporting modules are:

- `Text`: white space, ASCII case mapping, `Contains`, and integer numerals,
  with `int.Parse(n.ToString()) == n` proved.
- `Linq`: `Where`, `FirstOrDefault`, `GroupBy`+`Count`, `OrderBy` and `Select`,
  each with its meaning proved.
- `Entities`: the records of `Models/TaskItem.cs`, `Models/User.cs` and
  `Models/Project.cs`, plus the claims.
- `Store`: the `AppDbContext` class, whose three table fields are sequences
  in storage order. It also holds the SQLite identity counters and the key
  invariants every action keeps.

## Modelling choices

- `DateTime` is a tick count (`nat`). `DateTime.MinValue` is 0.
- `DateTime.Now` and `DateTime.Today` are parameters (`now`, `today`).
- A date rendered as `yyyy-MM-dd` is its day number (`DayOf`).
- The session is the list of its claims. Types are the `ClaimTypes` URIs and
  `"ProjectId"`.
- `int.Parse` of a claim is modelled on the canonical numerals `Int32.ToString`
  writes, which are the only ones `SignInUser` puts in a session. Its callers
  require any present id claim to be such a numeral.
- Claim types are compared ignoring case, as `ClaimsIdentity.FindFirst` does.
- The `[FromBody]` reader follows ASP.NET Core's web defaults for
  `System.Text.Json`: member names match ignoring case, the last duplicate
  wins, and an integer property also accepts a numeral written as a string.
- A null `string` action argument behaves like `""` in every test the code
  applies (`IsNullOrWhiteSpace`, `IsNullOrEmpty`), so it is passed as `""`.
  This covers arguments only, not values stored in a table.
- BCrypt is a `PasswordHasher` value made of two functions: `hash` and `verify`.
  Where a property needs `Verify(p, Hash(p))`, it states that as a precondition
  (`HashRoundTrips`).
- `Guid.NewGuid().ToString()` is an input string in the "D" format
  (`IsGuidText`).
- Keys are AUTOINCREMENT counters that are never reused.
  `Store.AppDbContext.Valid` says four things:
  - keys are positive, distinct and below the counter, in every table;
  - e-mail addresses are distinct, which `Register` keeps by its duplicate check;
  - every assigned task names a stored user. This is the foreign key that
    EF Core's conventions derive from `TaskItem.AssignedUser`;
  - every user belongs to a stored project. This is the cascading foreign key
    that `User.Project` gives `Users.ProjectId`.
- The schema is the one those conventions derive from the entity classes.
  `TaskItem.ProjectId` has no navigation and no foreign key.
- A commit that the database refuses makes `SaveChangesAsync` throw. The
  action then answers `ServerError` (status 500), and nothing is saved.
- `SaveChangesAsync` commits at once, so each field update of a method is one
  committed step.
- JavaScript numbers are modelled as exact integers. `stringToColor`'s loop
  keeps `hash` exact:
  - it grows by less than 2^32 per character;
  - so a double holds it exactly for any string shorter than about 2^21 code units.
  - The 32-bit operations (`<<`, `&`) are written out with `ToInt32`.

Behaviour of the code that the model keeps as written:

- Edit and delete check only the project, never ownership. Any member may
  change any task of the project.
- `CanManage` depends on the role alone.
- Members who join a team get the role `"User"`.
- The uniqueness of a new invite code is not checked.
- The assignee of a saved task is stored as sent, provided it is a stored
  user. Nothing checks that the assignee belongs to the caller's project. An
  unknown assignee is refused by the foreign key, and the request fails.
- `GetMyNotifications` is not filtered by project.
- `SaveTask` never sets `CreatedBy`: a created task keeps the value of the
  request body (0 when the body omits it).
- The workload statistics group by the assigned user entity.
  - The "Unassigned" group holds the tasks whose navigation is null. Under the
    foreign key, these are exactly the unassigned tasks.
  - The chart labels a user whose full name is "Unassigned" as "Unassigned",
    because `loadChart` tests the name only.

## Model

| member | source | states |
|---|---|---|
| Text.IsNullOrWhiteSpace | Controllers/AccountController.cs:30 | a string is blank iff every character is .NET white space (the empty string included) |
| Text.ToLower | Controllers/TasksController.cs:73-78 | lower-casing keeps the length and maps each character by the ASCII case mapping |
| Text.NumeralRoundTrip | Controllers/AccountController.cs:168-171 | reading back the numeral written for n in any radix 2..36 gives n |
| Text.IntRoundTrip | Controllers/TasksController.cs:266-276 | `Int32.ToString` writes a numeral `int.Parse` accepts, and parsing it gives the number back |
| Text.NumeralLength | wwwroot/js/taskManager.js:46-47 | a number below radix^k is written with at most k digits, so the colour's hex fits six places |
| Linq.Where | Controllers/TasksController.cs:66-67 | the filter keeps exactly the rows satisfying the predicate and never grows the table |
| Linq.WhereMultiset | Controllers/TasksController.cs:66-67 | the filter keeps every copy of a row that satisfies the predicate and no copy of any other row |
| Linq.LastOrDefault | Controllers/TasksController.cs:99 | null iff no row satisfies the predicate; otherwise a row satisfying it with no later row satisfying it |
| Linq.FirstOrDefault | Controllers/TasksController.cs:142-143 | null iff no row satisfies the predicate; otherwise the result is a row of the table satisfying it, and no earlier row satisfies it |
| Linq.FirstOrDefaultByKey | Controllers/AccountController.cs:136 | with distinct keys, a lookup that only admits x's key returns x |
| Linq.GroupCountCorrect | Controllers/TasksController.cs:161-166 | the groups have distinct keys, cover exactly the keys that occur, and each count is that key's number of occurrences |
| Linq.GroupCountTotal | Controllers/TasksController.cs:166 | the group counts add up to the number of rows grouped |
| Linq.OrderBy | Controllers/TasksController.cs:226 | the result is sorted by the key and is a permutation of the input |
| Linq.OrderByMembers | Controllers/TasksController.cs:226 | sorting keeps the number of rows and exactly the rows of the input |
| Linq.SelectWhereCount | Controllers/TasksController.cs:159-166 | the number of projected rows with image k equals the number of rows kept and mapped to k |
| Entities.AssignedUser | Models/TaskItem.cs:30-33 | the navigation property is a stored user with the task's `AssignedTo` key, and null when no user has that key or the task is unassigned |
| Entities.FindFirst | Controllers/TasksController.cs:268 | null iff no claim has the type, compared ignoring case; otherwise a claim of the session with that type, and no earlier claim has that type |
| Entities.FindFirstAt | Controllers/TasksController.cs:268 | a claim of the type that no claim of that type, in any case, precedes is the one found |
| Entities.FindFirstByLength | Controllers/TasksController.cs:268 | a claim of the type that no claim of the same type length precedes is the one found |
| Entities.SessionClaimAt | Controllers/AccountController.cs:166-172 | in a list typed NameIdentifier, Name, Role, ProjectId, each type is found at its own position |
| Store.AppDbContext.constructor | Models/AppDbContext.cs:10-12 | the three tables start empty with every counter at 1, and the key invariants hold |
| Store.TasksInsert | Controllers/TasksController.cs:108-112 | inserting a task under the counter's key keeps task keys distinct and below the advanced counter |
| Store.TasksUpdate | Controllers/TasksController.cs:119-129 | overwriting a task's fields but not its key keeps the key invariant |
| Store.TasksRemove | Controllers/TasksController.cs:147 | removing one row keeps the key invariant |
| Store.TasksFilter | Controllers/TasksController.cs:199-204 | removing every task of a project keeps the key invariant |
| Store.UsersInsert | Controllers/AccountController.cs:92-104 | inserting a user with a fresh key and an unused e-mail keeps keys and e-mail addresses distinct |
| Store.UsersFilter | Controllers/TasksController.cs:200-205 | removing every user of a project keeps keys and e-mail addresses distinct |
| Store.ProjectsInsert | Controllers/AccountController.cs:56-64 | inserting a project under the counter's key keeps the key invariant |
| Store.ProjectsUpdate | Controllers/TasksController.cs:181-184 | renaming a project keeps the key invariant |
| Store.AssigneesSetTask | Models/TaskItem.cs:30-33 | overwriting a task with one whose assignee is a stored user, or none, keeps the assignee foreign key |
| Store.AssigneesMoreUsers | Controllers/AccountController.cs:103-104 | adding a user keeps the assignee foreign key |
| Store.MembersMoreProjects | Controllers/AccountController.cs:63-64 | adding a project keeps every user in a stored project |
| Store.MembersAddUser | Controllers/AccountController.cs:94-104 | a user whose project is stored may be added, and every user stays in a stored project |
| Store.MembersSetProject | Controllers/TasksController.cs:180-184 | renaming a project under its own key keeps every user in a stored project |
| Store.ProjectsRemove | Controllers/TasksController.cs:206 | removing a project keeps the key invariant and leaves exactly the projects with another key |
| TasksController.ClaimAsInt | Controllers/TasksController.cs:266-276 | a missing claim yields 0; a present one yields its parsed value |
| TasksController.AdminName | Controllers/TasksController.cs:44-47 | "System" if the project has no admin; otherwise the name of its first admin in storage order |
| TasksController.ProjectOf | Controllers/TasksController.cs:36 | present iff a project has the key, and then a stored project with that key |
| TasksController.Index | Controllers/TasksController.cs:21-55 | the members list is exactly the users of the caller's project; team name and invite code are those of the caller's project, present iff it exists; the admin name is "System" if the project has no admin, otherwise the name of its first admin in storage order; the current user id is present iff the NameIdentifier claim is, and is then the claim's value; the role is the Role claim's value; the invite code is present iff the team name is |
| TasksController.DashboardFor | Controllers/TasksController.cs:33-55 | for a given project id: the members list is exactly that project's users; team name and invite code are present iff the project exists and are then its own; the admin name is "System" if the project has no admin, otherwise its first admin's name in storage order; user id and role are passed through |
| TasksController.CurrentUserId | Controllers/TasksController.cs:24-28 | present iff the NameIdentifier claim is, and then the user id that claim carries |
| TasksController.RowOf | Controllers/TasksController.cs:81-92 | a row carries the task's id, title, description, priority, status and assignee key, and its due date as a day; with an assigned user, that stored user's name and e-mail; without one, "Unassigned" and "" |
| TasksController.RowsOf | Controllers/TasksController.cs:81-92 | one row per selected task, row i projecting task i |
| TasksController.RowsOfIds | Controllers/TasksController.cs:81-92 | a row with a given id is listed iff a selected task has that id |
| TasksController.GetTasks | Controllers/TasksController.cs:59-95 | one row per listed task, row i being the row of the i-th listed task in storage order; every row has `CanManage` equal to the caller being Admin, and is the row of a task of the caller's project (no other project's task appears) |
| TasksController.GetTasksSearch | Controllers/TasksController.cs:66-79 | a stored task is listed iff it is in the caller's project and the term is empty or occurs, lower-cased, in its title, its non-null description or its assignee's name |
| TasksController.GetTasksEmptyTerm | Controllers/TasksController.cs:71 | with no term, the list has one row per task of the caller's project |
| TasksController.DueOrDefault | Controllers/TasksController.cs:103-106 | a `MinValue` due date becomes now plus 7 days; any other is kept; the result is never `MinValue` |
| TasksController.SaveTask | Controllers/TasksController.cs:99-134 | with id 0, exactly one task is appended under the next key, forced into the caller's project, with the due-date default. Otherwise, when no task with that id is in the caller's project, the answer is NotFound and nothing changes. When there is one, exactly its title, description, status, priority, assignee and due date are overwritten. In both cases an assignee that is no stored user gives ServerError and nothing changes. Users, projects and other projects' tasks are untouched, and the key and foreign-key invariants are kept |
| TasksController.OtherProjectsKept | Controllers/TasksController.cs:115-117 | overwriting a task of the caller's project keeps every task of the other projects |
| TasksController.DeleteTask | Controllers/TasksController.cs:138-150 | the Tasks table becomes `AfterDelete` of the old one; the answer is Ok iff a task with that id is in the caller's project, NotFound otherwise; users, projects and counters are unchanged |
| TasksController.DeleteTaskEffect | Controllers/TasksController.cs:142-148 | with distinct keys, a delete leaves exactly the tasks other than the caller's project's task with that id, one row fewer iff that task exists |
| TasksController.StatRowOf | Controllers/TasksController.cs:162-165 | the unassigned group is labelled "Unassigned" with e-mail ""; any other group carries its user's name and e-mail; the count is the group's count |
| TasksController.GetTaskStatsCorrect | Controllers/TasksController.cs:154-170 | one row per distinct assignee of the project's open tasks, covering exactly those assignees; each count is that assignee's number of open tasks of the project |
| TasksController.GetTaskStatsTotal | Controllers/TasksController.cs:158-166 | the counts add up to the number of the project's tasks that are not Completed |
| TasksController.GetTaskStatsIgnores | Controllers/TasksController.cs:159 | adding a Completed task, or a task of another project, leaves the statistics unchanged |
| TasksController.RenamedEffect | Controllers/TasksController.cs:180-184 | a rename changes only the name of the project with the caller's key, and only when the new name is not blank |
| TasksController.UpdateProjectName | Controllers/TasksController.cs:174-187 | a non-Admin gets Forbid and nothing changes; an Admin's Projects table becomes `Renamed`, and tasks, users and counters are unchanged |
| TasksController.DeleteProjectEffect | Controllers/TasksController.cs:197-209 | when the project exists, exactly its tasks, its users and its own row are removed; otherwise nothing is. Every row of another project stays |
| TasksController.DeleteProjectKeepsKeys | Controllers/TasksController.cs:199-206 | deleting a project that no other project's task blocks keeps the key invariants of all three tables, the assignee foreign key, and every remaining user in a stored project |
| TasksController.DeleteProject | Controllers/TasksController.cs:191-213 | a non-Admin gets Forbid and nothing changes. For an Admin, when a task of another project is assigned to a member of the project, the commit fails: ServerError, nothing changes. Otherwise the tables become `AfterDeleteProject` of the old ones, and the caller is signed out whether or not the project was found |
| TasksController.NotificationsFor | Controllers/TasksController.cs:219-236 | for a given user id: exactly that user's assigned, not Completed tasks due before today, today or tomorrow, one notification each (the same multiset as the filtered tasks mapped), sorted by due date; `IsOverdue` iff due before today, `IsDueToday` iff due today |
| TasksController.GetMyNotifications | Controllers/TasksController.cs:217-236 | exactly the caller's assigned, not Completed tasks due before today, today or tomorrow, one notification each (the same multiset as the filtered tasks mapped), sorted by due date; `IsOverdue` iff due before today, `IsDueToday` iff due today |
| TasksController.GetMyNotificationsCount | Controllers/TasksController.cs:217-236 | each notification occurs as many times as there are selected tasks that map to it |
| TasksController.GetAdminOverdueTasks | Controllers/TasksController.cs:240-262 | Unauthorized iff the caller is not Admin; otherwise row i is the row of the i-th task, in storage order, of the caller's project that is not Completed and is due before today |
| TasksController.GetAdminOverdueTasksCount | Controllers/TasksController.cs:240-262 | each overdue row occurs as many times as there are overdue tasks of the project that map to it |
| AccountController.InviteCodeFrom | Controllers/AccountController.cs:60 | the invite code is six upper-case hex digits |
| AccountController.Decide | Controllers/AccountController.cs:27-87 | "All fields are required." iff a field is blank; "Email is already in use." iff the fields are filled and the e-mail exists. After those checks: for an Admin, the team-name message iff the team name is blank, else a new team; otherwise the invite-code-required message iff the code is blank, the invalid-code message iff no project has that code, else a join of the first project whose invite code matches. A valid Admin form always creates a team, and a valid form with a matching code always joins |
| AccountController.Register | Controllers/AccountController.cs:27-109 | a rejected form shows its message and changes nothing. A new team appends one project (named as given, with a fresh invite code) and then its admin. A join appends one "User" in the matched project. The stored hash is `Hash(password)`, and tasks are untouched |
| AccountController.SessionClaimsRoundTrip | Controllers/AccountController.cs:164-172 | the session of a user reads back that user's id, e-mail (the Name claim), project id and role; it is Admin iff the user's role is "Admin" |
| AccountController.SessionClaimLookups | Controllers/AccountController.cs:166-172 | each of the four claim types (NameIdentifier, Name, Role, ProjectId) is found at the position the claim list writes it |
| AccountController.Login | Controllers/AccountController.cs:125-154 | a blank field gives "Please enter both email and password."; with both fields filled, every failure gives "Invalid Email or Password."; a success is the session of a stored user with that e-mail whose hash verifies the password |
| AccountController.LoginSucceedsIff | Controllers/AccountController.cs:133-147 | with distinct e-mails, login succeeds iff both fields are filled and some user with that exact e-mail has a hash that verifies the password |
| AccountController.LoginFindsUser | Controllers/AccountController.cs:136-145 | a stored user whose password verifies is signed in with that user's own session |
| AccountController.RegisterThenLogin | Controllers/AccountController.cs:92-100 | after registering, a login with the same e-mail and password succeeds, and the session carries the user's id and project id, and is Admin iff the role is "Admin" |
| AccountController.NoLoginIntoDeletedProject | Controllers/TasksController.cs:200-205 | after a project's users are removed, no login opens a session in that project |
| TaskManagerJs.CodeUnits | wwwroot/js/taskManager.js:44 | `charCodeAt` reads UTF-16 code units, each below 2^16, at least one per character |
| TaskManagerJs.ToInt32 | wwwroot/js/taskManager.js:44 | the signed 32-bit conversion lands in [-2^31, 2^31) and agrees with its argument modulo 2^32 |
| TaskManagerJs.PolyHashIsPowerSum | wwwroot/js/taskManager.js:42-45 | the rolling update h <- c + 31*h computes the sum of c_i * 31^(n-1-i) |
| TaskManagerJs.HashStep | wwwroot/js/taskManager.js:44 | `c + ((h << 5) - h)` equals `c + 31*h` modulo 2^32 |
| TaskManagerJs.Low24 | wwwroot/js/taskManager.js:46 | values equal modulo 2^32 have the same low 24 bits |
| TaskManagerJs.HexColor | wwwroot/js/taskManager.js:46-47 | the colour is "#" and six upper-case hex digits, zero-padded, whose value is the number |
| TaskManagerJs.ColorOf | wwwroot/js/taskManager.js:40-48 | "#cccccc" for an empty string and for "Unassigned"; otherwise "#" and six upper-case hex digits encoding the power sum of the code units modulo 2^24 |
| TaskManagerJs.StringToColor | wwwroot/js/taskManager.js:40-48 | the loop's result is `ColorOf(str)`: its invariant keeps the hash equal to the rolling hash modulo 2^32 |
| TaskManagerJs.JsParseIntAgrees | wwwroot/js/taskManager.js:232 | on the numerals the server writes, `parseInt` gives the value `int.Parse` gives |
| TaskManagerJs.NormalizeAssignee | wwwroot/js/taskManager.js:232 | the value is null or a number; "0" becomes null; any other selection becomes a number iff `parseInt` reads one, and that number is what `parseInt` reads (NaN becomes null) |
| TaskManagerJs.AssigneeRoundTrip | wwwroot/js/taskManager.js:232 | a user id rendered as an option value comes back as that id, and id 0 as null |
| TaskManagerJs.SaveTaskPayload | wwwroot/js/taskManager.js:225-234 | nothing is sent iff the title or the deadline is empty |
| TaskManagerJs.Member | Controllers/TasksController.cs:99 | the body binds a property iff some member name equals it ignoring ASCII case, and then to the last such member's value |
| TaskManagerJs.BindTask | Models/TaskItem.cs:10-35 | the body is unreadable iff some property's value is refused (null or a non-numeral for an `int`, a number for a `string`, anything but a parsable date string for `DueDate`); a property the body does not name keeps the default of `new TaskItem()`: Id 0, Title "", no Description, Priority "Medium", DueDate `MinValue`, Status "Todo", ProjectId 0, no assignee, CreatedBy 0 |
| TaskManagerJs.BindTaskStrings | Controllers/TasksController.cs:99 | a string member binds to the string as written, a null one to "" (no description for `Description`), and a `DueDate` string to the date the reader parses from it |
| TaskManagerJs.BindTaskNumbers | Controllers/TasksController.cs:99 | `Id`, `ProjectId`, `CreatedBy` and `AssignedTo` bind to a number as written or to the value of a numeral string; a null `AssignedTo` binds to no assignee |
| TaskManagerJs.MemberByLength | Controllers/TasksController.cs:99 | a member with no later member of the same name length is the one bound |
| TaskManagerJs.SaveTaskPayloadDropsIdAndDueDate | wwwroot/js/taskManager.js:234 | the body as written names neither `Id` nor `DueDate`, so the server binds Id 0 and DueDate `MinValue` |
| TaskManagerJs.SaveTaskPayloadFixed | wwwroot/js/taskManager.js:231 | the corrected body is sent iff the title and the deadline are both filled |
| TaskManagerJs.SaveTaskPayloadFixedBinds | wwwroot/js/taskManager.js:234 | the corrected body binds to a TaskItem whose id is the form's id and whose due date is the parsed deadline, carrying the form's title, description, priority, status and assignee |
| TaskManagerJs.BadgeClass | wwwroot/js/taskManager.js:95-96 | "High" iff bg-danger, "Medium" iff "bg-warning text-dark", anything else iff bg-success |
| TaskManagerJs.AlertFor | wwwroot/js/taskManager.js:153-155 | overdue takes precedence over due today, which takes precedence over due tomorrow, for icon, colour and message alike |
| TaskManagerJs.AlertsMatchDueDates | wwwroot/js/taskManager.js:153-155 | on the server's notifications, the danger colour shows iff the task is overdue, the warning colour iff it is due today, and the primary colour iff it is due tomorrow |
| TaskManagerJs.Chart | wwwroot/js/taskManager.js:123-128 | labels, counts and colours have one entry per statistics row, index-aligned; a row named "Unassigned" is labelled "Unassigned", any other as `name (email)` |
| TaskManagerJs.ChartCountsSum | wwwroot/js/taskManager.js:127 | the chart's counts add up to the statistics' counts |
| TaskManagerJs.ChartOfStats | wwwroot/js/taskManager.js:123-128 | the pie counts each open task of the project once, and an open unassigned task gives an "Unassigned" slice in "#cccccc" |

## Left out

- `Program.cs`: hosting, the database path, the cookie middleware and the
  migration at start-up. These are configuration and I/O.
- Entity Framework plumbing (`Models/AppDbContext.cs`) beyond the three tables;
  SQL translation of the queries.
- `RegisterViewModel` and `LoginViewModel`: their validation attributes are
  never consumed by the actions, which take raw strings.
- Cookie sign-in and sign-out, redirects, views, `ViewBag`/`ViewData`: only the
  outcome (`ActionResult`, `RegisterView`, `LoginResult`, the claim list) is modelled.
- The GET actions of `AccountController` (`Register()`, `Login()`, `Logout()`): view selection only.
- BCrypt and `Guid.NewGuid`: these are foreign calls. They are parameters
  (`PasswordHasher`, the guid string).
- The clock: `now` and `today` are parameters.
- The JSON rendering of dates.
  - `DueDate.ToString("yyyy-MM-dd")` is modelled as the day number.
  - The reader's ISO 8601 parsing is a `parseDate` parameter.
- Database-side failures other than the assignee foreign key:
  - the 32-bit range of the bound integers (ids and `AssignedTo` are
    unbounded here);
  - a malformed claim value, which makes `int.Parse` throw and is a
    precondition here.
- TasksController.ClaimAsInt: requires a canonical numeral. `int.Parse` also
  accepts surrounding white space, a leading `+` and leading zeros (" 7", "+7",
  "007" all give 7); those forms are not modelled, since no session the
  application signs in carries them.
- `getInitials` (`wwwroot/js/taskManager.js:51-54`): regular-expression
  word-boundary semantics over Unicode are not modelled.
- The DOM work of the script is not modelled:
  - jQuery building of rows, AJAX calls, Select2, Chart.js and Bootstrap modals;
  - the timed dropdown animation.
- The rows' `taskID` reads at `wwwroot/js/taskManager.js:110`, `:204` and
  `:213` are not modelled. The task list the server sends names the key `id`,
  so these reads are undefined. They sit in DOM wiring.
- Unicode case folding and culture rules: case mapping, the search, the claim
  type comparison and the JSON name matching use ASCII letters only.
- TaskManagerJs.BindString: a JSON `null` for `Title`, `Priority` or `Status`
  is bound as `""`. The server binds null, and since these columns are NOT
  NULL, `SaveChangesAsync` would then throw. The dashboard's body always sends
  these members as strings, so this path is outside the modelled traffic.
- TasksController.GetMyNotifications: states sorted order and the same notifications with their multiplicities, not which of two tasks due at the same tick comes first.
- Linq.Where: its own contract states membership and WhereMultiset states multiplicity; that the rows keep their table order is stated only through WhereAppend, which the inductive proofs use.
- A `SaveTask` body with a nested `AssignedUser` object: the JSON values modelled have no objects inside objects. EF Core would insert such an object as a new user.
- TasksController.GetTaskStatsCorrect: the groups come in order of first occurrence; the order SQL returns groups in is not specified, so no caller should rely on it.
- AccountController.LoginSucceedsIff: assumes distinct e-mail addresses, the invariant `Register` keeps, rather than the first match in storage order.
- TaskManagerJs.StringToColor: the hash is an exact integer; a double loses precision only past about 2^21 code units.

## Findings

| source | as written | input that shows it | evidently intended | confidence | as-written member | corrected member |
|---|---|---|---|---|---|---|
| wwwroot/js/taskManager.js:234 | `saveTask` posts the id under `TaskID` and the deadline under `Deadline`; the server's `TaskItem` binds `Id` and `DueDate`, and neither name matches any member | any form with a title and a deadline, e.g. id "5", deadline "2030-01-01": the server reads Id 0 and DueDate `MinValue`, so it creates a new task due a week from now instead of editing task 5 | post the id as `Id` and the deadline as `DueDate`, so an edit updates that task with the chosen deadline | not executed | TaskManagerJs.SaveTaskPayloadDropsIdAndDueDate | TaskManagerJs.SaveTaskPayloadFixedBinds |

=== FILE: account_controller.dfy ===
/**
 * Registration (create a team or join one by invite code), login against the
 * stored password hash, and the claims a session is signed in with.
 */
module AccountController {
  import opened Options
  import opened Text
  import opened Linq
  import opened Entities
  import opened Store
  import opened TasksController

  /**
   * The password hashing library: `hash` is `BCrypt.HashPassword`, `verify` is
   * `BCrypt.Verify(password, hash)`. Both are outside this model; properties that
   * rely on BCrypt state the round trip they need as a precondition.
   */
  datatype PasswordHasher = PasswordHasher(hash: string -> string, verify: (string, string) -> bool)

  predicate HashRoundTrips(hasher: PasswordHasher, password: string) {
    hasher.verify(password, hasher.hash(password))
  }

  // ---------------------------------------------------------------------------
  // Invite codes
  // ---------------------------------------------------------------------------

  /** `Guid.ToString()` ("D" format): 32 lower-case hex digits in groups 8-4-4-4-12. */
  predicate IsGuidText(g: string) {
    && |g| == 36
    && forall i :: 0 <= i < 36 ==> if i in {8, 13, 18, 23} then g[i] == '-' else IsLowerHex(g[i])
  }

  /** The invite code of a new team: the first six characters of a fresh GUID, upper-cased. */
  function InviteCodeFrom(guid: string): (code: string)
    requires IsGuidText(guid)
    ensures |code| == 6
    ensures forall i :: 0 <= i < 6 ==> IsUpperHex(code[i])
  {
    assert forall i :: 0 <= i < 6 ==> IsLowerHex(guid[i]);
    ToUpper(guid[..6])
  }

  // ---------------------------------------------------------------------------
  // Register
  // ---------------------------------------------------------------------------

  /** How a registration form is answered: an error message, a new team, or joining a team. */
  datatype Registration = Rejected(message: string) | CreateTeam | JoinTeam(projectId: int)

  const FieldsRequired := "All fields are required."
  const EmailInUse := "Email is already in use."
  const TeamNameRequired := "Team Name is required to create a team."
  const InviteCodeRequired := "Invite Code is required to join a team."
  const InvalidInviteCode := "Invalid Invite Code. Please check with your admin."

  function InviteMatch(code: string): Project -> bool {
    (p: Project) => p.inviteCode == code
  }

  function HasEmail(email: string): User -> bool {
    (u: User) => u.email == email
  }

  /** The decision `Register` takes on the current tables, before anything is written. */
  function Decide(users: seq<User>, projects: seq<Project>, fullName: string, email: string, password: string,
                  userRole: string, projectName: string, inviteCode: string): (r: Registration)
    ensures r == Rejected(FieldsRequired) <==>
      IsNullOrWhiteSpace(fullName) || IsNullOrWhiteSpace(email) || IsNullOrWhiteSpace(password)
    ensures r == Rejected(EmailInUse) <==>
      !(IsNullOrWhiteSpace(fullName) || IsNullOrWhiteSpace(email) || IsNullOrWhiteSpace(password))
      && exists u :: u in users && u.email == email
    ensures !r.Rejected? ==>
      && !IsNullOrWhiteSpace(fullName) && !IsNullOrWhiteSpace(email) && !IsNullOrWhiteSpace(password)
      && forall u :: u in users ==> u.email != email
    ensures r.CreateTeam? <==> !r.Rejected? && userRole == "Admin"
    ensures r.CreateTeam? ==> !IsNullOrWhiteSpace(projectName)
    ensures r == Rejected(TeamNameRequired) <==>
      !(IsNullOrWhiteSpace(fullName) || IsNullOrWhiteSpace(email) || IsNullOrWhiteSpace(password))
      && (forall u :: u in users ==> u.email != email)
      && userRole == "Admin" && IsNullOrWhiteSpace(projectName)
    ensures r == Rejected(InviteCodeRequired) <==>
      !(IsNullOrWhiteSpace(fullName) || IsNullOrWhiteSpace(email) || IsNullOrWhiteSpace(password))
      && (forall u :: u in users ==> u.email != email)
      && userRole != "Admin" && IsNullOrWhiteSpace(inviteCode)
    ensures r.JoinTeam? ==> exists p :: p in projects && p.inviteCode == inviteCode && p.id == r.projectId
    ensures r.JoinTeam? ==>
      exists i :: 0 <= i < |projects| && projects[i].inviteCode == inviteCode && projects[i].id == r.projectId
        && (forall j :: 0 <= j < i ==> projects[j].inviteCode != inviteCode)
    ensures !(IsNullOrWhiteSpace(fullName) || IsNullOrWhiteSpace(email) || IsNullOrWhiteSpace(password))
      && (forall u :: u in users ==> u.email != email)
      && userRole == "Admin" && !IsNullOrWhiteSpace(projectName)
      ==> r == CreateTeam
    ensures !(IsNullOrWhiteSpace(fullName) || IsNullOrWhiteSpace(email) || IsNullOrWhiteSpace(password))
      && (forall u :: u in users ==> u.email != email)
      && userRole != "Admin" && !IsNullOrWhiteSpace(inviteCode)
      && (exists p :: p in projects && p.inviteCode == inviteCode)
      ==> r.JoinTeam?
    ensures r == Rejected(InvalidInviteCode) <==>
      !(IsNullOrWhiteSpace(fullName) || IsNullOrWhiteSpace(email) || IsNullOrWhiteSpace(password))
      && (forall u :: u in users ==> u.email != email)
      && userRole != "Admin" && !IsNullOrWhiteSpace(inviteCode)
      && forall p :: p in projects ==> p.inviteCode != inviteCode
  {
    if IsNullOrWhiteSpace(fullName) || IsNullOrWhiteSpace(email) || IsNullOrWhiteSpace(password) then
      Rejected(FieldsRequired)
    else if FirstOrDefault(users, HasEmail(email)).Some? then
      Rejected(EmailInUse)
    else if userRole == "Admin" then
      if IsNullOrWhiteSpace(projectName) then Rejected(TeamNameRequired) else CreateTeam
    else if IsNullOrWhiteSpace(inviteCode) then
      Rejected(InviteCodeRequired)
    else
      match FirstOrDefault(projects, InviteMatch(inviteCode))
      case None => Rejected(InvalidInviteCode)
      case Some(p) => JoinTeam(p.id)
  }

  /** The page `Register` renders: the error shown, or the success banner. */
  datatype RegisterView = RegisterError(message: string) | RegisterSuccess

  /**
   * `Register(...)`. A rejected form changes nothing. An admin sign-up first
   * stores a new project (named as given, with a fresh invite code) and then
   * its admin; any other sign-up stores a "User" in the project whose invite
   * code matches. The password is stored only as its hash.
   */
  method Register(db: AppDbContext, fullName: string, email: string, password: string, userRole: string,
                  projectName: string, inviteCode: string, guid: string, hasher: PasswordHasher)
    returns (view: RegisterView)
    requires db.Valid() && IsGuidText(guid)
    modifies db
    ensures db.Valid()
    ensures db.tasks == old(db.tasks) && db.nextTaskId == old(db.nextTaskId)
    ensures var d := Decide(old(db.users), old(db.projects), fullName, email, password, userRole, projectName, inviteCode);
      && (d.Rejected? ==>
            view == RegisterError(d.message)
            && db.users == old(db.users) && db.projects == old(db.projects)
            && db.nextUserId == old(db.nextUserId) && db.nextProjectId == old(db.nextProjectId))
      && (d.CreateTeam? ==>
            view == RegisterSuccess
            && db.projects == old(db.projects) + [Project(old(db.nextProjectId), projectName, InviteCodeFrom(guid))]
            && db.users == old(db.users) +
                 [User(old(db.nextUserId), fullName, email, hasher.hash(password), "Admin", old(db.nextProjectId))]
            && db.nextUserId == old(db.nextUserId) + 1 && db.nextProjectId == old(db.nextProjectId) + 1)
      && (d.JoinTeam? ==>
            view == RegisterSuccess
            && db.projects == old(db.projects)
            && db.users == old(db.users) + [User(old(db.nextUserId), fullName, email, hasher.hash(password), "User", d.projectId)]
            && db.nextUserId == old(db.nextUserId) + 1 && db.nextProjectId == old(db.nextProjectId))
  {
    var decision := Decide(db.users, db.projects, fullName, email, password, userRole, projectName, inviteCode);
    if decision.Rejected? {
      return RegisterError(decision.message);
    }
    var assignedProjectId, assignedRole := 0, "User";
    if decision.CreateTeam? {
      var created := Project(db.nextProjectId, projectName, InviteCodeFrom(guid));
      ProjectsInsert(db.projects, db.nextProjectId, created);
      MembersMoreProjects(db.users, db.projects, created);
      db.projects := db.projects + [created];
      db.nextProjectId := db.nextProjectId + 1;
      assignedProjectId, assignedRole := created.id, "Admin";
    } else {
      assignedProjectId := decision.projectId;
    }
    var user := User(db.nextUserId, fullName, email, hasher.hash(password), assignedRole, assignedProjectId);
    UsersInsert(db.users, db.nextUserId, user);
    AssigneesMoreUsers(db.tasks, db.users, user);
    MembersAddUser(db.users, db.projects, user);
    db.users := db.users + [user];
    db.nextUserId := db.nextUserId + 1;
    return RegisterSuccess;
  }

  // ---------------------------------------------------------------------------
  // Login and the session
  // ---------------------------------------------------------------------------

  /** `SignInUser(user)`: the claims of the session cookie. */
  function SignInUser(u: User): seq<Claim> {
    [ Claim(NameIdentifierClaim, IntToString(u.id)),
      Claim(NameClaim, u.email),
      Claim(RoleClaim, u.role),
      Claim(ProjectIdClaim, IntToString(u.projectId)) ]
  }

  /** A session reads back the user it was signed in for: id, e-mail, project and role. */
  lemma SessionClaimsRoundTrip(u: User)
    ensures NumericClaim(SignInUser(u), NameIdentifierClaim) && NumericClaim(SignInUser(u), ProjectIdClaim)
    ensures GetUserId(SignInUser(u)) == u.id
    ensures GetProjectId(SignInUser(u)) == u.projectId
    ensures RoleOf(SignInUser(u)) == Some(u.role)
    ensures FindFirst(SignInUser(u), NameClaim) == Some(Claim(NameClaim, u.email))
    ensures IsAdmin(SignInUser(u)) <==> u.role == "Admin"
  {
    IntRoundTrip(u.id);
    IntRoundTrip(u.projectId);
    SessionClaimLookups(u);
  }

  /** Each claim type of a session is found at the position `SignInUser` writes it. */
  lemma SessionClaimLookups(u: User)
    ensures FindFirst(SignInUser(u), NameIdentifierClaim) == Some(SignInUser(u)[0])
    ensures FindFirst(SignInUser(u), NameClaim) == Some(SignInUser(u)[1])
    ensures FindFirst(SignInUser(u), RoleClaim) == Some(SignInUser(u)[2])
    ensures FindFirst(SignInUser(u), ProjectIdClaim) == Some(SignInUser(u)[3])
  {
    var claims := SignInUser(u);
    SessionClaimAt(claims, 0);
    SessionClaimAt(claims, 1);
    SessionClaimAt(claims, 2);
    SessionClaimAt(claims, 3);
  }

  datatype LoginResult = LoginFailed(message: string) | SignedIn(claims: seq<Claim>)

  const BothRequired := "Please enter both email and password."
  const InvalidCredentials := "Invalid Email or Password."

  /** `Login(email, password)`: the first user with that e-mail, if the password verifies against its hash. */
  function Login(users: seq<User>, email: string, password: string, hasher: PasswordHasher): (r: LoginResult)
    ensures IsNullOrWhiteSpace(email) || IsNullOrWhiteSpace(password) ==> r == LoginFailed(BothRequired)
    ensures !IsNullOrWhiteSpace(email) && !IsNullOrWhiteSpace(password) && r.LoginFailed? ==>
      r.message == InvalidCredentials
    ensures r.SignedIn? ==>
      exists u :: u in users && u.email == email && hasher.verify(password, u.passwordHash) && r.claims == SignInUser(u)
  {
    if IsNullOrWhiteSpace(email) || IsNullOrWhiteSpace(password) then
      LoginFailed(BothRequired)
    else
      match FirstOrDefault(users, HasEmail(email))
      case Some(u) =>
        if hasher.verify(password, u.passwordHash) then SignedIn(SignInUser(u)) else LoginFailed(InvalidCredentials)
      case None => LoginFailed(InvalidCredentials)
  }

  /**
   * With e-mail addresses unique, login succeeds exactly when both fields are
   * filled in and the password verifies against that address's stored hash.
   */
  lemma LoginSucceedsIff(users: seq<User>, email: string, password: string, hasher: PasswordHasher)
    requires DistinctBy(users, EmailOf)
    ensures Login(users, email, password, hasher).SignedIn? <==>
      && !IsNullOrWhiteSpace(email) && !IsNullOrWhiteSpace(password)
      && exists u :: u in users && u.email == email && hasher.verify(password, u.passwordHash)
  {
    if exists u :: u in users && u.email == email && hasher.verify(password, u.passwordHash) {
      var u :| u in users && u.email == email && hasher.verify(password, u.passwordHash);
      FirstOrDefaultByKey(users, EmailOf, HasEmail(email), u);
    }
  }

  /** A user whose address is unique and whose password verifies is signed in by Login. */
  lemma LoginFindsUser(users: seq<User>, u: User, password: string, hasher: PasswordHasher)
    requires DistinctBy(users, EmailOf) && u in users
    requires !IsNullOrWhiteSpace(u.email) && !IsNullOrWhiteSpace(password)
    requires hasher.verify(password, u.passwordHash)
    ensures Login(users, u.email, password, hasher) == SignedIn(SignInUser(u))
  {
    FirstOrDefaultByKey(users, EmailOf, HasEmail(u.email), u);
  }

  /**
   * Registration then login: once `Register` has stored a user, logging in with
   * the same e-mail and password opens a session for that user's id, project
   * and role.
   */
  lemma RegisterThenLogin(users: seq<User>, u: User, password: string, hasher: PasswordHasher)
    requires DistinctBy(users + [u], EmailOf)
    requires !IsNullOrWhiteSpace(u.email) && !IsNullOrWhiteSpace(password)
    requires u.passwordHash == hasher.hash(password) && HashRoundTrips(hasher, password)
    ensures Login(users + [u], u.email, password, hasher) == SignedIn(SignInUser(u))
    ensures NumericClaim(SignInUser(u), NameIdentifierClaim) && NumericClaim(SignInUser(u), ProjectIdClaim)
    ensures GetUserId(SignInUser(u)) == u.id && GetProjectId(SignInUser(u)) == u.projectId
    ensures IsAdmin(SignInUser(u)) <==> u.role == "Admin"
  {
    assert u in users + [u];
    LoginFindsUser(users + [u], u, password, hasher);
    SessionClaimsRoundTrip(u);
  }

  /** Once a project is deleted, no login opens a session in it. */
  lemma NoLoginIntoDeletedProject(users: seq<User>, pid: int, email: string, password: string, hasher: PasswordHasher)
    ensures var r := Login(Where(users, UserOutside(pid)), email, password, hasher);
      r.SignedIn? ==> NumericClaim(r.claims, ProjectIdClaim) && GetProjectId(r.claims) != pid
  {
    var r := Login(Where(users, UserOutside(pid)), email, password, hasher);
    if r.SignedIn? {
      var u :| u in Where(users, UserOutside(pid)) && u.email == email && hasher.verify(password, u.passwordHash)
        && r.claims == SignInUser(u);
      SessionClaimsRoundTrip(u);
    }
  }
}

=== FILE: entities.dfy ===
/**
 * The records the application stores (tasks, users, projects), the
 * `System.DateTime` values they carry, and the claims a signed-in session holds.
 */
module Entities {
  import opened Options
  import opened Text
  import opened Linq

  /** A `DateTime`, as its tick count: 100-nanosecond intervals since 0001-01-01 00:00. */
  type DateTime = nat

  /** `DateTime.MinValue`, the value a task's due date has when the request did not set it. */
  const MinValue: DateTime := 0

  const TicksPerDay: nat := 864_000_000_000

  /** `d.AddDays(days)`. */
  function AddDays(d: DateTime, days: nat): DateTime {
    d + days * TicksPerDay
  }

  /** The calendar day `d.ToString("yyyy-MM-dd")` renders, as a day number. */
  function DayOf(d: DateTime): nat {
    d / TicksPerDay
  }

  /** A row of the Tasks table. */
  datatype TaskItem = TaskItem(
    id: int,
    title: string,
    description: Option<string>,
    priority: string,
    dueDate: DateTime,
    status: string,
    projectId: int,
    assignedTo: Option<int>,
    createdBy: int)

  /** A TaskItem as `new TaskItem()` initialises it: what a request body leaves unset keeps these values. */
  const DefaultTask := TaskItem(0, "", None, "Medium", MinValue, "Todo", 0, None, 0)

  /** A row of the Users table. Role is "Admin" or "User". */
  datatype User = User(
    id: int,
    fullName: string,
    email: string,
    passwordHash: string,
    role: string,
    projectId: int)

  /** A row of the Projects table: a team, joined by its invite code. */
  datatype Project = Project(id: int, name: string, inviteCode: string)

  function KeyOfTask(t: TaskItem): int { t.id }
  function KeyOfUser(u: User): int { u.id }
  function KeyOfProject(p: Project): int { p.id }
  function EmailOf(u: User): string { u.email }

  /** The `AssignedUser` navigation property: the user whose key is the task's `AssignedTo`. */
  function AssignedUser(users: seq<User>, assignedTo: Option<int>): (r: Option<User>)
    ensures assignedTo.None? ==> r.None?
    ensures r.Some? ==> r.value in users && Some(r.value.id) == assignedTo
    ensures r.None? && assignedTo.Some? ==> forall u :: u in users ==> u.id != assignedTo.value
  {
    match assignedTo
    case None => None
    case Some(k) => FirstOrDefault(users, (u: User) => u.id == k)
  }

  // ---------------------------------------------------------------------------
  // Claims of the signed-in principal.
  // ---------------------------------------------------------------------------

  datatype Claim = Claim(claimType: string, value: string)

  /** `ClaimTypes.NameIdentifier`. */
  const NameIdentifierClaim := "http://schemas.xmlsoap.org/ws/2005/05/identity/claims/nameidentifier"
  /** `ClaimTypes.Name`. */
  const NameClaim := "http://schemas.xmlsoap.org/ws/2005/05/identity/claims/name"
  /** `ClaimTypes.Role`. */
  const RoleClaim := "http://schemas.microsoft.com/ws/2008/06/identity/claims/role"
  /** The application's own claim type for the tenant. */
  const ProjectIdClaim := "ProjectId"

  /**
   * `User.FindFirst(type)`: the first claim whose type equals `type` ignoring
   * case, as `ClaimsIdentity` compares claim types, or null.
   */
  function FindFirst(claims: seq<Claim>, claimType: string): (r: Option<Claim>)
    ensures r.Some? ==> r.value in claims && EqualsIgnoreCase(r.value.claimType, claimType)
    ensures r.None? ==> forall c :: c in claims ==> !EqualsIgnoreCase(c.claimType, claimType)
    ensures r.Some? ==>
      exists i :: 0 <= i < |claims| && claims[i] == r.value
        && (forall j :: 0 <= j < i ==> !EqualsIgnoreCase(claims[j].claimType, claimType))
  {
    FirstOrDefault(claims, (c: Claim) => EqualsIgnoreCase(c.claimType, claimType))
  }

  /** A claim of the type with no claim of that type, in any case, before it is the one found. */
  lemma FindFirstAt(claims: seq<Claim>, claimType: string, k: nat)
    requires k < |claims| && claims[k].claimType == claimType
    requires forall j :: 0 <= j < k ==> !EqualsIgnoreCase(claims[j].claimType, claimType)
    ensures FindFirst(claims, claimType) == Some(claims[k])
  {
    assert EqualsIgnoreCase(claims[k].claimType, claimType);
    var r := FindFirst(claims, claimType);
    var i :| 0 <= i < |claims| && claims[i] == r.value
      && (forall j :: 0 <= j < i ==> !EqualsIgnoreCase(claims[j].claimType, claimType));
    assert !(i < k) && !(k < i);
  }

  /** Claim types of another length never match, so a claim with none of its length before it is found. */
  lemma FindFirstByLength(claims: seq<Claim>, claimType: string, k: nat)
    requires k < |claims| && claims[k].claimType == claimType
    requires forall j :: 0 <= j < k ==> |claims[j].claimType| != |claimType|
    ensures FindFirst(claims, claimType) == Some(claims[k])
  {
    FindFirstAt(claims, claimType, k);
  }

  /**
   * In a list of four claims typed NameIdentifier, Name, Role and ProjectId, in
   * that order, each type is found at its own position: the four types have four
   * different lengths.
   */
  lemma SessionClaimAt(claims: seq<Claim>, k: nat)
    requires |claims| == 4 && k < 4
    requires claims[0].claimType == NameIdentifierClaim && claims[1].claimType == NameClaim
    requires claims[2].claimType == RoleClaim && claims[3].claimType == ProjectIdClaim
    ensures FindFirst(claims, claims[k].claimType) == Some(claims[k])
  {
    assert |NameIdentifierClaim| == 68 && |NameClaim| == 58 && |RoleClaim| == 60 && |ProjectIdClaim| == 9;
    FindFirstByLength(claims, claims[k].claimType, k);
  }

  /** `User.FindFirst(ClaimTypes.Role)?.Value`. */
  function RoleOf(claims: seq<Claim>): Option<string> {
    match FindFirst(claims, RoleClaim)
    case None => None
    case Some(c) => Some(c.value)
  }
}

=== FILE: linq.dfy ===
/**
 * The query operators the controllers apply to their tables, as Entity Framework
 * evaluates them over a table read in storage order: Where, FirstOrDefault, a
 * GroupBy followed by Count, and a stable OrderBy.
 */
module Linq {
  import opened Options

  /** `Where(keep)`: the rows that satisfy keep, in table order. */
  function Where<T(!new)>(s: seq<T>, keep: T -> bool): (r: seq<T>)
    ensures |r| <= |s|
    ensures forall x :: x in r <==> x in s && keep(x)
    decreases |s|
  {
    if s == [] then []
    else Where(s[..|s| - 1], keep) + (if keep(s[|s| - 1]) then [s[|s| - 1]] else [])
  }

  /** The filter keeps every copy of a kept row and drops every copy of the others. */
  lemma {:induction false} WhereMultiset<T(!new)>(s: seq<T>, keep: T -> bool)
    ensures forall x :: multiset(Where(s, keep))[x] == if keep(x) then multiset(s)[x] else 0
    decreases |s|
  {
    if s != [] {
      var init, last := s[..|s| - 1], s[|s| - 1];
      assert s == init + [last];
      WhereMultiset(init, keep);
    }
  }

  lemma WhereAppend<T(!new)>(s: seq<T>, x: T, keep: T -> bool)
    ensures Where(s + [x], keep) == Where(s, keep) + (if keep(x) then [x] else [])
  {
    assert (s + [x])[..|s|] == s;
  }

  /** Distinct keys: no two rows share a key, as a primary key guarantees. */
  ghost predicate DistinctBy<T, K>(s: seq<T>, key: T -> K) {
    forall i, j :: 0 <= i < |s| && 0 <= j < |s| && key(s[i]) == key(s[j]) ==> i == j
  }

  /** Filtering keeps keys distinct. */
  lemma {:induction false} WhereDistinct<T(!new), K>(s: seq<T>, keep: T -> bool, key: T -> K)
    requires DistinctBy(s, key)
    ensures DistinctBy(Where(s, keep), key)
    decreases |s|
  {
    if s != [] {
      var init, last := s[..|s| - 1], s[|s| - 1];
      assert DistinctBy(init, key) by {
        forall i, j | 0 <= i < |init| && 0 <= j < |init| && key(init[i]) == key(init[j])
          ensures i == j
        {
          assert init[i] == s[i] && init[j] == s[j];
        }
      }
      WhereDistinct(init, keep, key);
      var w := Where(init, keep);
      if keep(last) {
        forall i | 0 <= i < |w| ensures key(w[i]) != key(last) {
          assert w[i] in init;
          var k :| 0 <= k < |init| && init[k] == w[i];
          assert s[k] == w[i];
        }
      }
    }
  }

  /** Removing one row keeps keys distinct. */
  lemma RemoveAtDistinct<T, K>(s: seq<T>, i: nat, key: T -> K)
    requires i < |s| && DistinctBy(s, key)
    ensures DistinctBy(s[..i] + s[i + 1..], key)
  {
    var r := s[..i] + s[i + 1..];
    forall a, b | 0 <= a < |r| && 0 <= b < |r| && key(r[a]) == key(r[b]) ensures a == b {
      var a', b' := if a < i then a else a + 1, if b < i then b else b + 1;
      assert r[a] == s[a'] && r[b] == s[b'];
    }
  }

  /** Removing the row at `i` removes exactly the rows sharing its key. */
  lemma RemoveAtMembers<T, K>(s: seq<T>, i: nat, key: T -> K)
    requires i < |s| && DistinctBy(s, key)
    ensures forall x :: x in s[..i] + s[i + 1..] <==> x in s && key(x) != key(s[i])
  {
    var r := s[..i] + s[i + 1..];
    forall x | x in r ensures x in s && key(x) != key(s[i]) {
      var m :| 0 <= m < |r| && r[m] == x;
      var n := if m < i then m else m + 1;
      assert s[n] == x;
    }
    forall x | x in s && key(x) != key(s[i]) ensures x in r {
      var j :| 0 <= j < |s| && s[j] == x;
      if j < i {
        assert r[j] == x;
      } else {
        assert r[j - 1] == x;
      }
    }
  }

  /** The position `FirstOrDefault(p)` finds, if any. */
  function FirstIndex<T>(s: seq<T>, p: T -> bool): (r: Option<nat>)
    ensures r.None? <==> forall i :: 0 <= i < |s| ==> !p(s[i])
    ensures r.Some? ==> r.value < |s| && p(s[r.value]) && forall i :: 0 <= i < r.value ==> !p(s[i])
    decreases |s|
  {
    if s == [] then None
    else if p(s[0]) then Some(0)
    else match FirstIndex(s[1..], p)
      case None => None
      case Some(k) => Some(k + 1)
  }

  /** `FirstOrDefault(p)`: the first row satisfying p, or null. */
  function FirstOrDefault<T>(s: seq<T>, p: T -> bool): (r: Option<T>)
    ensures r.None? <==> forall x :: x in s ==> !p(x)
    ensures r.Some? ==> r.value in s && p(r.value)
    ensures r.Some? ==> exists i :: 0 <= i < |s| && s[i] == r.value && (forall j :: 0 <= j < i ==> !p(s[j]))
  {
    match FirstIndex(s, p)
    case None => None
    case Some(i) => Some(s[i])
  }

  /** `LastOrDefault(p)`: the last row satisfying p, or null. */
  function LastOrDefault<T>(s: seq<T>, p: T -> bool): (r: Option<T>)
    ensures r.None? <==> forall x :: x in s ==> !p(x)
    ensures r.Some? ==> exists i :: 0 <= i < |s| && s[i] == r.value && p(s[i]) && (forall j :: i < j < |s| ==> !p(s[j]))
    decreases |s|
  {
    if s == [] then None
    else if p(s[|s| - 1]) then Some(s[|s| - 1])
    else
      var r := LastOrDefault(s[..|s| - 1], p);
      assert forall x :: x in s ==> x in s[..|s| - 1] || x == s[|s| - 1];
      r
  }

  /** With distinct keys, a filter that only admits rows with x's key finds x. */
  lemma FirstOrDefaultByKey<T, K>(s: seq<T>, key: T -> K, p: T -> bool, x: T)
    requires DistinctBy(s, key) && x in s && p(x)
    requires forall y :: p(y) ==> key(y) == key(x)
    ensures FirstOrDefault(s, p) == Some(x)
  {
    var i := FirstIndex(s, p).value;
    var j :| 0 <= j < |s| && s[j] == x;
    assert key(s[i]) == key(s[j]);
  }

  // ---------------------------------------------------------------------------
  // GroupBy(key).Select(g => (g.Key, g.Count())), groups in order of first occurrence.
  // ---------------------------------------------------------------------------

  function Keys<K>(groups: seq<(K, nat)>): (r: seq<K>)
    ensures |r| == |groups| && forall i :: 0 <= i < |groups| ==> r[i] == groups[i].0
  {
    seq(|groups|, i requires 0 <= i < |groups| => groups[i].0)
  }

  function Total<K>(groups: seq<(K, nat)>): nat {
    if groups == [] then 0 else Total(groups[..|groups| - 1]) + groups[|groups| - 1].1
  }

  ghost predicate DistinctKeys<K>(groups: seq<(K, nat)>) {
    forall i, j :: 0 <= i < j < |groups| ==> groups[i].0 != groups[j].0
  }

  /** Counts one more occurrence of k: its group grows by one, or a new group is opened at the end. */
  function Bump<K(==,!new)>(groups: seq<(K, nat)>, k: K): (r: seq<(K, nat)>)
    requires DistinctKeys(groups)
    ensures DistinctKeys(r)
    ensures |r| == (if k in Keys(groups) then |groups| else |groups| + 1)
    ensures forall i :: 0 <= i < |groups| ==> r[i].0 == groups[i].0
    ensures forall i :: 0 <= i < |groups| ==> r[i].1 == groups[i].1 + (if groups[i].0 == k then 1 else 0)
    ensures |r| == |groups| + 1 ==> r[|groups|] == (k, 1)
  {
    match FirstIndex(groups, (g: (K, nat)) => g.0 == k)
    case None =>
      assert k !in Keys(groups);
      groups + [(k, 1)]
    case Some(i) =>
      assert Keys(groups)[i] == k;
      groups[i := (k, groups[i].1 + 1)]
  }

  /** A key is among the keys of the groups after a bump iff it was before or is the bumped one. */
  lemma BumpKeys<K(!new)>(groups: seq<(K, nat)>, k: K)
    requires DistinctKeys(groups)
    ensures forall x :: x in Keys(Bump(groups, k)) <==> x in Keys(groups) || x == k
  {
    var r := Bump(groups, k);
    if |r| == |groups| {
      assert Keys(r) == Keys(groups);
    } else {
      assert Keys(r) == Keys(groups) + [k];
    }
  }

  /** The groups of keys, each with the number of its occurrences. */
  function GroupCount<K(==,!new)>(keys: seq<K>): (r: seq<(K, nat)>)
    ensures DistinctKeys(r)
    decreases |keys|
  {
    if keys == [] then [] else Bump(GroupCount(keys[..|keys| - 1]), keys[|keys| - 1])
  }

  /**
   * The groups are exactly the distinct keys, and each group's count is the
   * number of times its key occurs.
   */
  lemma {:induction false} GroupCountCorrect<K(!new)>(keys: seq<K>)
    ensures DistinctKeys(GroupCount(keys))
    ensures forall k :: k in Keys(GroupCount(keys)) <==> k in keys
    ensures forall i :: 0 <= i < |GroupCount(keys)| ==>
              GroupCount(keys)[i].1 == multiset(keys)[GroupCount(keys)[i].0]
    decreases |keys|
  {
    if keys != [] {
      var init, last := keys[..|keys| - 1], keys[|keys| - 1];
      assert keys == init + [last];
      GroupCountCorrect(init);
      var g := GroupCount(init);
      var r := Bump(g, last);
      forall i, j | 0 <= i < j < |r| ensures r[i].0 != r[j].0 {
        if j == |g| {
          assert r[i].0 == g[i].0 && g[i].0 in Keys(g);
        }
      }
      forall i | 0 <= i < |r| ensures r[i].1 == multiset(keys)[r[i].0] {
        if i == |g| {
          assert last !in init by { assert last !in Keys(g); }
        }
      }
    }
  }

  /** The counts add up to the number of keys grouped. */
  lemma {:induction false} GroupCountTotal<K(!new)>(keys: seq<K>)
    ensures Total(GroupCount(keys)) == |keys|
    decreases |keys|
  {
    if keys != [] {
      GroupCountTotal(keys[..|keys| - 1]);
      GroupCountCorrect(keys[..|keys| - 1]);
      BumpTotal(GroupCount(keys[..|keys| - 1]), keys[|keys| - 1]);
    }
  }

  lemma {:induction false} BumpTotal<K(!new)>(groups: seq<(K, nat)>, k: K)
    requires DistinctKeys(groups)
    ensures Total(Bump(groups, k)) == Total(groups) + 1
  {
    var r := Bump(groups, k);
    if |r| == |groups| + 1 {
      assert r[..|groups|] == groups;
    } else if groups != [] {
      TotalPointwise(groups, r, k);
    }
  }

  /** Two group lists over the same keys whose counts differ by one at a single key k. */
  lemma {:induction false} TotalPointwise<K>(groups: seq<(K, nat)>, r: seq<(K, nat)>, k: K)
    requires |r| == |groups|
    requires forall i :: 0 <= i < |groups| ==> r[i].0 == groups[i].0
    requires forall i :: 0 <= i < |groups| ==> r[i].1 == groups[i].1 + (if groups[i].0 == k then 1 else 0)
    requires DistinctKeys(groups) && k in Keys(groups)
    ensures Total(r) == Total(groups) + 1
    decreases |groups|
  {
    var n := |groups|;
    var gi, ri := groups[..n - 1], r[..n - 1];
    if groups[n - 1].0 == k {
      assert k !in Keys(gi) by {
        forall i | 0 <= i < |gi| ensures gi[i].0 != k { }
      }
      TotalUnchanged(gi, ri, k);
    } else {
      assert k in Keys(gi) by {
        var i :| 0 <= i < n && groups[i].0 == k;
        assert gi[i].0 == k;
      }
      TotalPointwise(gi, ri, k);
    }
  }

  lemma {:induction false} TotalUnchanged<K>(groups: seq<(K, nat)>, r: seq<(K, nat)>, k: K)
    requires |r| == |groups|
    requires forall i :: 0 <= i < |groups| ==> r[i].1 == groups[i].1 + (if groups[i].0 == k then 1 else 0)
    requires k !in Keys(groups)
    ensures Total(r) == Total(groups)
    decreases |groups|
  {
    if groups != [] {
      var n := |groups|;
      assert groups[n - 1].0 != k by { assert Keys(groups)[n - 1] == groups[n - 1].0; }
      TotalUnchanged(groups[..n - 1], r[..n - 1], k);
    }
  }

  // ---------------------------------------------------------------------------
  // OrderBy(key): a stable sort.
  // ---------------------------------------------------------------------------

  ghost predicate SortedBy<T>(s: seq<T>, key: T -> int) {
    forall i, j :: 0 <= i < j < |s| ==> key(s[i]) <= key(s[j])
  }

  /** Places x after every row whose key is not greater than its own. */
  function InsertBy<T>(sorted: seq<T>, x: T, key: T -> int): (r: seq<T>)
    requires SortedBy(sorted, key)
    ensures SortedBy(r, key)
    ensures multiset(r) == multiset(sorted) + multiset{x}
    decreases |sorted|
  {
    if sorted == [] then [x]
    else
      var init, last := sorted[..|sorted| - 1], sorted[|sorted| - 1];
      assert sorted == init + [last];
      if key(last) <= key(x) then
        AppendSorted(sorted, x, key);
        sorted + [x]
      else
        var r' := InsertBy(init, x, key);
        InsertBelowLast(sorted, x, key, r');
        AppendSorted(r', last, key);
        r' + [last]
  }

  lemma AppendSorted<T>(s: seq<T>, x: T, key: T -> int)
    requires SortedBy(s, key) && forall y :: y in s ==> key(y) <= key(x)
    ensures SortedBy(s + [x], key)
  {
    assert forall i :: 0 <= i < |s| ==> s[i] in s;
  }

  /** Every row of the insertion into the front part stays at or below the last row's key. */
  lemma InsertBelowLast<T>(sorted: seq<T>, x: T, key: T -> int, r': seq<T>)
    requires SortedBy(sorted, key) && |sorted| > 0 && key(x) < key(sorted[|sorted| - 1])
    requires multiset(r') == multiset(sorted[..|sorted| - 1]) + multiset{x}
    ensures forall y :: y in r' ==> key(y) <= key(sorted[|sorted| - 1])
  {
    var init, last := sorted[..|sorted| - 1], sorted[|sorted| - 1];
    forall y | y in r' ensures key(y) <= key(last) {
      assert y in multiset(r');
      if y != x {
        assert y in multiset(init);
        var k :| 0 <= k < |init| && init[k] == y;
        assert sorted[k] == y;
      }
    }
  }

  /** `OrderBy(key)`: sorted by key, a permutation of the input. */
  function OrderBy<T>(s: seq<T>, key: T -> int): (r: seq<T>)
    ensures SortedBy(r, key)
    ensures multiset(r) == multiset(s)
    decreases |s|
  {
    if s == [] then []
    else
      assert s == s[..|s| - 1] + [s[|s| - 1]];
      InsertBy(OrderBy(s[..|s| - 1], key), s[|s| - 1], key)
  }

  /** Sorting keeps the number of rows and which rows there are. */
  lemma OrderByMembers<T>(s: seq<T>, key: T -> int)
    ensures |OrderBy(s, key)| == |s|
    ensures forall x :: x in OrderBy(s, key) <==> x in s
  {
    var r := OrderBy(s, key);
    forall x ensures x in r <==> x in s {
      assert x in r <==> multiset(r)[x] > 0;
      assert x in s <==> multiset(s)[x] > 0;
    }
    assert |r| == |multiset(r)| == |multiset(s)| == |s|;
  }

  /** `Select(f)`: the image of every row, in order. */
  function Select<T, U>(s: seq<T>, f: T -> U): (r: seq<U>)
    ensures |r| == |s| && forall i :: 0 <= i < |s| ==> r[i] == f(s[i])
  {
    seq(|s|, i requires 0 <= i < |s| => f(s[i]))
  }

  lemma SelectMembers<T, U>(s: seq<T>, f: T -> U)
    ensures forall y :: y in Select(s, f) <==> exists x :: x in s && y == f(x)
  {
    assert forall i :: 0 <= i < |s| ==> s[i] in s && Select(s, f)[i] in Select(s, f);
  }

  /** The rows `keep` selects whose image under `f` is `k`. */
  function KeepWithImage<T, U(==)>(keep: T -> bool, f: T -> U, k: U): T -> bool {
    x => keep(x) && f(x) == k
  }

  /** A group's size: how often `k` occurs among the images of the kept rows is the number of kept rows with that image. */
  lemma {:induction false} SelectWhereCount<T(!new), U>(s: seq<T>, keep: T -> bool, f: T -> U, k: U)
    ensures multiset(Select(Where(s, keep), f))[k] == |Where(s, KeepWithImage(keep, f, k))|
    decreases |s|
  {
    if s != [] {
      var init, last := s[..|s| - 1], s[|s| - 1];
      assert s == init + [last];
      SelectWhereCount(init, keep, f, k);
      WhereAppend(init, last, keep);
      WhereAppend(init, last, KeepWithImage(keep, f, k));
      var w, g := Where(init, keep), KeepWithImage(keep, f, k);
      assert g(last) == (keep(last) && f(last) == k);
      if keep(last) {
        assert Where(s, keep) == w + [last];
        assert Select(w + [last], f) == Select(w, f) + [f(last)];
        assert multiset(Select(w + [last], f)) == multiset(Select(w, f)) + multiset{f(last)};
        if f(last) == k {
          assert Where(s, g) == Where(init, g) + [last];
        } else {
          assert Where(s, g) == Where(init, g);
        }
      } else {
        assert Where(s, keep) == w;
        assert Where(s, g) == Where(init, g);
      }
    }
  }
}

=== FILE: options.dfy ===
/** A value that may be absent: C#'s nullable references and `int?`, JavaScript's null. */
module Options {
  datatype Option<+T> = None | Some(value: T)
}

=== FILE: store.dfy ===
/**
 * The database context: the three tables the controllers read and change, held
 * in storage order, and the identity counters SQLite uses to key new rows.
 * `SaveChangesAsync` commits at once: each update of a field is one committed step.
 */
module Store {
  import opened Entities
  import opened Linq

  /** Task keys are positive, distinct and below the counter. */
  ghost predicate TasksValid(tasks: seq<TaskItem>, nextId: int) {
    1 <= nextId && DistinctBy(tasks, KeyOfTask) && forall t :: t in tasks ==> 0 < t.id < nextId
  }

  /** User keys are positive, distinct and below the counter; the registration check keeps e-mail addresses distinct. */
  ghost predicate UsersValid(users: seq<User>, nextId: int) {
    1 <= nextId && DistinctBy(users, KeyOfUser) && DistinctBy(users, EmailOf) && forall u :: u in users ==> 0 < u.id < nextId
  }

  /** Project keys are positive, distinct and below the counter. */
  ghost predicate ProjectsValid(projects: seq<Project>, nextId: int) {
    1 <= nextId && DistinctBy(projects, KeyOfProject) && forall p :: p in projects ==> 0 < p.id < nextId
  }

  /**
   * The foreign key of `TaskItem.AssignedTo`: every assigned task names a stored
   * user. SQLite rejects a commit that would break it.
   */
  ghost predicate AssigneesStored(tasks: seq<TaskItem>, users: seq<User>) {
    forall t :: t in tasks && t.assignedTo.Some? ==> exists u :: u in users && u.id == t.assignedTo.value
  }

  /**
   * The foreign key of `User.ProjectId`, which `User.Project` makes a cascading
   * one: every user belongs to a stored project.
   */
  ghost predicate MembersStored(users: seq<User>, projects: seq<Project>) {
    forall u :: u in users ==> exists p :: p in projects && p.id == u.projectId
  }

  class AppDbContext {
    var tasks: seq<TaskItem>
    var users: seq<User>
    var projects: seq<Project>
    /** The key the next inserted row of each table receives (AUTOINCREMENT: keys are never reused). */
    var nextTaskId: int
    var nextUserId: int
    var nextProjectId: int

    ghost predicate Valid()
      reads this
    {
      && TasksValid(tasks, nextTaskId) && UsersValid(users, nextUserId) && ProjectsValid(projects, nextProjectId)
      && AssigneesStored(tasks, users) && MembersStored(users, projects)
    }

    /** A freshly migrated, empty database. */
    constructor ()
      ensures Valid()
      ensures tasks == [] && users == [] && projects == []
      ensures nextTaskId == 1 && nextUserId == 1 && nextProjectId == 1
    {
      tasks, users, projects := [], [], [];
      nextTaskId, nextUserId, nextProjectId := 1, 1, 1;
    }
  }

  // ---------------------------------------------------------------------------
  // Each change the controllers make keeps the keys valid.
  // ---------------------------------------------------------------------------

  /** An insert under the counter's key, with the counter moved on. */
  lemma TasksInsert(tasks: seq<TaskItem>, nextId: int, t: TaskItem)
    requires TasksValid(tasks, nextId) && t.id == nextId
    ensures TasksValid(tasks + [t], nextId + 1)
  {
    forall x | x in tasks ensures KeyOfTask(x) != KeyOfTask(t) { }
  }

  /** An update that keeps the row's key. */
  lemma TasksUpdate(tasks: seq<TaskItem>, nextId: int, k: nat, t: TaskItem)
    requires TasksValid(tasks, nextId) && k < |tasks| && t.id == tasks[k].id
    ensures TasksValid(tasks[k := t], nextId)
  {
    assert tasks[k] in tasks;
    assert forall x :: x in tasks[k := t] ==> x == t || x in tasks;
  }

  lemma TasksRemove(tasks: seq<TaskItem>, nextId: int, k: nat)
    requires TasksValid(tasks, nextId) && k < |tasks|
    ensures TasksValid(tasks[..k] + tasks[k + 1..], nextId)
  {
    RemoveAtDistinct(tasks, k, KeyOfTask);
    RemoveAtMembers(tasks, k, KeyOfTask);
  }

  lemma TasksFilter(tasks: seq<TaskItem>, nextId: int, keep: TaskItem -> bool)
    requires TasksValid(tasks, nextId)
    ensures TasksValid(Where(tasks, keep), nextId)
  {
    WhereDistinct(tasks, keep, KeyOfTask);
  }

  lemma UsersInsert(users: seq<User>, nextId: int, u: User)
    requires UsersValid(users, nextId) && u.id == nextId && forall x :: x in users ==> x.email != u.email
    ensures UsersValid(users + [u], nextId + 1)
  {
    forall x | x in users ensures KeyOfUser(x) != KeyOfUser(u) && EmailOf(x) != EmailOf(u) { }
  }

  lemma UsersFilter(users: seq<User>, nextId: int, keep: User -> bool)
    requires UsersValid(users, nextId)
    ensures UsersValid(Where(users, keep), nextId)
  {
    WhereDistinct(users, keep, KeyOfUser);
    WhereDistinct(users, keep, EmailOf);
  }

  lemma ProjectsInsert(projects: seq<Project>, nextId: int, p: Project)
    requires ProjectsValid(projects, nextId) && p.id == nextId
    ensures ProjectsValid(projects + [p], nextId + 1)
  {
    forall x | x in projects ensures KeyOfProject(x) != KeyOfProject(p) { }
  }

  lemma ProjectsUpdate(projects: seq<Project>, nextId: int, k: nat, p: Project)
    requires ProjectsValid(projects, nextId) && k < |projects| && p.id == projects[k].id
    ensures ProjectsValid(projects[k := p], nextId)
  {
    assert projects[k] in projects;
    assert forall x :: x in projects[k := p] ==> x == p || x in projects;
  }

  /** Removing a project's row leaves no row with its key. */
  lemma ProjectsRemove(projects: seq<Project>, nextId: int, k: nat)
    requires ProjectsValid(projects, nextId) && k < |projects|
    ensures ProjectsValid(projects[..k] + projects[k + 1..], nextId)
    ensures forall p :: p in projects[..k] + projects[k + 1..] <==> p in projects && p.id != projects[k].id
  {
    RemoveAtDistinct(projects, k, KeyOfProject);
    RemoveAtMembers(projects, k, KeyOfProject);
  }

  /** A task whose assignee is a stored user, or none, may be added. */
  lemma AssigneesAddTask(tasks: seq<TaskItem>, users: seq<User>, t: TaskItem)
    requires AssigneesStored(tasks, users)
    requires t.assignedTo.Some? ==> exists u :: u in users && u.id == t.assignedTo.value
    ensures AssigneesStored(tasks + [t], users)
  {
  }

  /** Such a task may also be written over row `k`. */
  lemma AssigneesSetTask(tasks: seq<TaskItem>, users: seq<User>, k: nat, t: TaskItem)
    requires AssigneesStored(tasks, users) && k < |tasks|
    requires t.assignedTo.Some? ==> exists u :: u in users && u.id == t.assignedTo.value
    ensures AssigneesStored(tasks[k := t], users)
  {
    assert forall x :: x in tasks[k := t] ==> x == t || x in tasks;
  }

  /** Removing tasks keeps the foreign key. */
  lemma AssigneesFewerTasks(tasks: seq<TaskItem>, kept: seq<TaskItem>, users: seq<User>)
    requires AssigneesStored(tasks, users) && forall t :: t in kept ==> t in tasks
    ensures AssigneesStored(kept, users)
  {
  }

  /** Adding a user keeps the foreign key. */
  lemma AssigneesMoreUsers(tasks: seq<TaskItem>, users: seq<User>, u: User)
    requires AssigneesStored(tasks, users)
    ensures AssigneesStored(tasks, users + [u])
  {
    forall t | t in tasks && t.assignedTo.Some? ensures exists v :: v in users + [u] && v.id == t.assignedTo.value {
      var v :| v in users && v.id == t.assignedTo.value;
      assert v in users + [u];
    }
  }

  /** Adding a project keeps the foreign key of the users. */
  lemma MembersMoreProjects(users: seq<User>, projects: seq<Project>, p: Project)
    requires MembersStored(users, projects)
    ensures MembersStored(users, projects + [p])
  {
    forall u | u in users ensures exists q :: q in projects + [p] && q.id == u.projectId {
      var q :| q in projects && q.id == u.projectId;
      assert q in projects + [p];
    }
  }

  /** A user of a stored project may be added. */
  lemma MembersAddUser(users: seq<User>, projects: seq<Project>, u: User)
    requires MembersStored(users, projects) && exists p :: p in projects && p.id == u.projectId
    ensures MembersStored(users + [u], projects)
  {
  }

  /** Rewriting a project's row under its own key keeps the foreign key of the users. */
  lemma MembersSetProject(users: seq<User>, projects: seq<Project>, k: nat, p: Project)
    requires MembersStored(users, projects) && k < |projects| && p.id == projects[k].id
    ensures MembersStored(users, projects[k := p])
  {
    forall u | u in users ensures exists q :: q in projects[k := p] && q.id == u.projectId {
      var q :| q in projects && q.id == u.projectId;
      var i :| 0 <= i < |projects| && projects[i] == q;
      assert projects[k := p][i].id == u.projectId;
    }
  }
}

=== FILE: task_manager_js.dfy ===
/**
 * The dashboard script's pure helpers: the avatar colour of an e-mail address,
 * the body `saveTask` posts, the priority badge, the notification line and the
 * workload chart. JavaScript strings are sequences of UTF-16 code units and its
 * numbers are doubles; both are written out here.
 */
module TaskManagerJs {
  import opened Options
  import opened Text
  import opened Linq
  import opened Entities
  import opened TasksController

  // ---------------------------------------------------------------------------
  // stringToColor
  // ---------------------------------------------------------------------------

  const TwoTo24: nat := 0x100_0000
  const TwoTo31: nat := 0x8000_0000
  const TwoTo32: nat := 0x1_0000_0000

  /** The UTF-16 code units `charCodeAt` reads: one per BMP character, a surrogate pair otherwise. */
  function CodeUnits(s: string): (u: seq<int>)
    ensures |u| >= |s|
    ensures forall i :: 0 <= i < |u| ==> 0 <= u[i] < 0x1_0000
  {
    if s == [] then []
    else
      var n := s[0] as int;
      (if n < 0x1_0000 then [n] else [0xD800 + (n - 0x1_0000) / 0x400, 0xDC00 + (n - 0x1_0000) % 0x400])
      + CodeUnits(s[1..])
  }

  /** ECMAScript ToInt32: the number modulo 2^32, read as a signed 32-bit value. */
  function ToInt32(x: int): (r: int)
    ensures -(TwoTo31 as int) <= r < TwoTo31
    ensures r % TwoTo32 == x % TwoTo32
  {
    var m := x % TwoTo32;
    if m >= TwoTo31 then m - TwoTo32 else m
  }

  /** `x << 5`. */
  function ShiftLeft5(x: int): int {
    ToInt32(ToInt32(x) * 32)
  }

  /** The rolling hash h <- c + 31 * h over the code units, without any wrap-around. */
  function PolyHash(u: seq<int>): int {
    if u == [] then 0 else 31 * PolyHash(u[..|u| - 1]) + u[|u| - 1]
  }

  /** The same hash as a sum of powers: the sum of u[i] * 31^(n-1-i). */
  function PowerSum(u: seq<int>): int {
    if u == [] then 0 else u[0] * Pow(31, |u| - 1) + PowerSum(u[1..])
  }

  lemma {:induction false} PowerSumSnoc(u: seq<int>, c: int)
    ensures PowerSum(u + [c]) == 31 * PowerSum(u) + c
    decreases |u|
  {
    if u != [] {
      assert (u + [c])[1..] == u[1..] + [c];
      PowerSumSnoc(u[1..], c);
      assert Pow(31, |u|) == 31 * Pow(31, |u| - 1);
      assert u[0] * Pow(31, |u|) == 31 * (u[0] * Pow(31, |u| - 1));
    }
  }

  /** Horner's rule computes the power sum. */
  lemma {:induction false} PolyHashIsPowerSum(u: seq<int>)
    ensures PolyHash(u) == PowerSum(u)
    decreases |u|
  {
    if u != [] {
      var init := u[..|u| - 1];
      assert u == init + [u[|u| - 1]];
      PolyHashIsPowerSum(init);
      PowerSumSnoc(init, u[|u| - 1]);
    }
  }

  lemma AddMultiple32(a: int, k: int)
    ensures (a + TwoTo32 * k) % TwoTo32 == a % TwoTo32
  {
  }

  lemma AddMultiple24(a: int, k: int)
    ensures (a + TwoTo24 * k) % TwoTo24 == a % TwoTo24
  {
  }

  /**
   * One step of the loop at line 44, read modulo 2^32: the shift and the
   * subtraction amount to multiplying by 31.
   */
  lemma HashStep(h: int, p: int, c: int)
    requires h % TwoTo32 == p % TwoTo32
    ensures (c + (ShiftLeft5(h) - h)) % TwoTo32 == (c + 31 * p) % TwoTo32
  {
    var t := ToInt32(h);
    var s := ShiftLeft5(h);
    var k1 := (t * 32 - s) / TwoTo32;
    var k2 := (h - t) / TwoTo32;
    var k3 := (h - p) / TwoTo32;
    assert t * 32 - s == TwoTo32 * k1;
    assert h - t == TwoTo32 * k2;
    assert h - p == TwoTo32 * k3;
    assert c + (s - h) == (c + 31 * p) + TwoTo32 * (31 * k3 - 32 * k2 - k1);
    AddMultiple32(c + 31 * p, 31 * k3 - 32 * k2 - k1);
  }

  /** Numbers that agree modulo 2^32 agree in their low 24 bits. */
  lemma Low24(a: int, b: int)
    requires a % TwoTo32 == b % TwoTo32
    ensures a % TwoTo24 == b % TwoTo24
  {
    var k := (a - b) / TwoTo32;
    assert a - b == TwoTo32 * k;
    assert a == b + TwoTo24 * (256 * k);
    AddMultiple24(b, 256 * k);
  }

  lemma SixHexDigits()
    ensures Pow(16, 6) == TwoTo24
  {
    assert Pow(16, 2) == 256;
    assert Pow(16, 4) == 256 * 256 by {
      assert Pow(16, 4) == 16 * (16 * Pow(16, 2));
    }
    assert Pow(16, 6) == 16 * (16 * Pow(16, 4));
  }

  /** Upper-casing hex digits gives upper-case hex digits. */
  lemma UpperHexDigits(digits: string)
    requires AllDigitsIn(digits, 16)
    ensures forall i :: 0 <= i < |digits| ==> IsUpperHex(ToUpper(digits)[i])
  {
    forall i | 0 <= i < |digits| ensures IsUpperHex(ToUpper(digits)[i]) {
      assert IsDigitIn(digits[i], 16);
    }
  }

  /** `"#" + "00000".substring(0, 6 - c.length) + c`, where c is n in upper-case hex. */
  function HexColor(n: nat): (color: string)
    requires n < TwoTo24
    ensures |color| == 7 && color[0] == '#'
    ensures forall i :: 1 <= i < 7 ==> IsUpperHex(color[i])
    ensures NumeralValue(color[1..], 16) == n
  {
    var digits := Numeral(n, 16);
    SixHexDigits();
    NumeralLength(n, 16, 6);
    var c := ToUpper(digits);
    var pad := "00000"[..6 - |c|];
    UpperHexDigits(digits);
    HexColorValue(pad, c, digits, n);
    "#" + pad + c
  }

  lemma HexColorValue(pad: string, c: string, digits: string, n: nat)
    requires digits == Numeral(n, 16) && c == ToUpper(digits)
    requires forall i :: 0 <= i < |pad| ==> pad[i] == '0'
    ensures NumeralValue(("#" + pad + c)[1..], 16) == n
  {
    assert ("#" + pad + c)[1..] == pad + c;
    LeadingZeros(pad, c, 16);
    UpperNumeral(digits, 16);
    NumeralRoundTrip(n, 16);
  }

  /** The placeholder colour for a missing e-mail and for the unassigned group. */
  const Placeholder := "#cccccc"

  /** What `stringToColor(str)` returns. */
  function ColorOf(str: string): (color: string)
    ensures str == "" || str == "Unassigned" ==> color == Placeholder
    ensures str != "" && str != "Unassigned" ==>
      && |color| == 7 && color[0] == '#'
      && (forall i :: 1 <= i < 7 ==> IsUpperHex(color[i]))
      && NumeralValue(color[1..], 16) == PowerSum(CodeUnits(str)) % TwoTo24
  {
    if str == "" || str == "Unassigned" then Placeholder
    else
      PolyHashIsPowerSum(CodeUnits(str));
      HexColor(PolyHash(CodeUnits(str)) % TwoTo24)
  }

  /**
   * `stringToColor(str)`: the loop keeps the hash exact (as a double holds it
   * for any realistic length) and agrees with the rolling hash modulo 2^32;
   * `& 0x00FFFFFF` keeps its low 24 bits.
   */
  method StringToColor(str: string) returns (color: string)
    ensures color == ColorOf(str)
  {
    if str == "" || str == "Unassigned" {
      return Placeholder;
    }
    var units := CodeUnits(str);
    var hash := 0;
    for i := 0 to |units|
      invariant hash % TwoTo32 == PolyHash(units[..i]) % TwoTo32
    {
      assert units[..i + 1][..i] == units[..i];
      HashStep(hash, PolyHash(units[..i]), units[i]);
      hash := units[i] + (ShiftLeft5(hash) - hash);
    }
    assert units[..|units|] == units;
    var low := ToInt32(hash) % TwoTo24;
    Low24(ToInt32(hash), PolyHash(units));
    color := HexColor(low);
  }

  // ---------------------------------------------------------------------------
  // saveTask: the request body
  // ---------------------------------------------------------------------------

  datatype JsonValue = JStr(str: string) | JNum(num: int) | JNull

  /** A JSON object, members in the order they are written. */
  type JsonObject = seq<(string, JsonValue)>

  /** ECMAScript StrWhiteSpaceChar: white space and line terminators. */
  predicate IsJsWhiteSpace(c: char) {
    var n := c as int;
    n == 0x09 || n == 0x0A || n == 0x0B || n == 0x0C || n == 0x0D || n == 0x20 || n == 0xA0
    || n == 0x1680 || (0x2000 <= n <= 0x200A) || n == 0x2028 || n == 0x2029 || n == 0x202F
    || n == 0x205F || n == 0x3000 || n == 0xFEFF
  }

  function TrimStartJs(s: string): (r: string)
    ensures |r| <= |s| && r == s[|s| - |r|..]
    ensures r != [] ==> !IsJsWhiteSpace(r[0])
  {
    if s != [] && IsJsWhiteSpace(s[0]) then
      var r := TrimStartJs(s[1..]);
      assert s[1..][|s| - 1 - |r|..] == s[|s| - |r|..];
      r
    else s
  }

  /** The longest prefix of s made of digits of the radix. */
  function DigitPrefix(s: string, radix: nat): (p: string)
    ensures |p| <= |s| && p == s[..|p|] && AllDigitsIn(p, radix)
    ensures |p| < |s| ==> !IsDigitIn(s[|p|], radix)
  {
    if s != [] && IsDigitIn(s[0], radix) then [s[0]] + DigitPrefix(s[1..], radix) else []
  }

  /** The digits after the sign: a "0x" or "0X" prefix selects radix 16; None when no digit follows. */
  function JsParseUnsigned(rest: string): Option<nat> {
    var hex := |rest| >= 2 && rest[0] == '0' && (rest[1] == 'x' || rest[1] == 'X');
    var radix := if hex then 16 else 10;
    var digits := DigitPrefix(if hex then rest[2..] else rest, radix);
    if digits == [] then None else Some(NumeralValue(digits, radix))
  }

  /** `parseInt(s)`: None stands for NaN. */
  function JsParseInt(s: string): Option<int> {
    var t := TrimStartJs(s);
    if |t| > 0 && t[0] == '-' then
      match JsParseUnsigned(t[1..])
      case None => None
      case Some(n) => Some(-(n as int))
    else if |t| > 0 && t[0] == '+' then
      match JsParseUnsigned(t[1..])
      case None => None
      case Some(n) => Some(n as int)
    else
      match JsParseUnsigned(t)
      case None => None
      case Some(n) => Some(n as int)
  }

  lemma {:induction false} DigitPrefixAll(s: string, radix: nat)
    requires AllDigitsIn(s, radix)
    ensures DigitPrefix(s, radix) == s
    decreases |s|
  {
    if s != [] {
      assert IsDigitIn(s[0], radix);
      DigitPrefixAll(s[1..], radix);
    }
  }

  lemma DecimalAgrees(rest: string)
    requires |rest| >= 1 && AllDigitsIn(rest, 10)
    ensures JsParseUnsigned(rest) == Some(NumeralValue(rest, 10))
  {
    if |rest| >= 2 {
      assert IsDigitIn(rest[1], 10);
    }
    DigitPrefixAll(rest, 10);
  }

  /** On the decimal numerals the server writes, `parseInt` and `int.Parse` agree. */
  lemma JsParseIntAgrees(s: string)
    requires IsIntLiteral(s)
    ensures JsParseInt(s) == Some(ParseInt(s))
  {
    if s[0] == '-' {
      NegativeAgrees(s);
      assert ParseInt(s) == -(NumeralValue(s[1..], 10) as int);
    } else {
      NonNegativeAgrees(s);
      assert ParseInt(s) == NumeralValue(s, 10);
    }
  }

  lemma NegativeAgrees(s: string)
    requires |s| >= 2 && s[0] == '-' && AllDigitsIn(s[1..], 10)
    ensures JsParseInt(s) == Some(-(NumeralValue(s[1..], 10) as int))
  {
    assert TrimStartJs(s) == s;
    DecimalAgrees(s[1..]);
  }

  lemma NonNegativeAgrees(s: string)
    requires |s| >= 1 && s[0] != '-' && AllDigitsIn(s, 10)
    ensures JsParseInt(s) == Some(NumeralValue(s, 10) as int)
  {
    assert IsDigitIn(s[0], 10);
    assert '0' <= s[0] <= '9';
    assert TrimStartJs(s) == s;
    DecimalAgrees(s);
    assert !(s[0] == '-' || s[0] == '+');
  }

  /** Line 232: the "0" option means no assignee; any other value goes through `parseInt` (NaN serialises as null). */
  function NormalizeAssignee(selected: string): (v: JsonValue)
    ensures v.JNull? || v.JNum?
    ensures selected == "0" ==> v == JNull
    ensures selected != "0" ==> (v.JNum? <==> JsParseInt(selected).Some?)
    ensures v.JNum? ==> JsParseInt(selected) == Some(v.num)
  {
    if selected == "0" then JNull
    else match JsParseInt(selected)
      case None => JNull
      case Some(n) => JNum(n)
  }

  /** A user's option value, as the server renders the id, comes back as that id; "0" comes back as null. */
  lemma AssigneeRoundTrip(id: int)
    ensures NormalizeAssignee(IntToString(id)) == if id == 0 then JNull else JNum(id)
  {
    IntRoundTrip(id);
    JsParseIntAgrees(IntToString(id));
    if id == 0 {
      assert Numeral(0, 10) == "0";
    }
  }

  /** The modal's fields as `.val()` reads them. */
  datatype TaskForm = TaskForm(
    id: string, title: string, description: string, priority: string,
    deadline: string, status: string, assignedTo: string)

  /** The body `saveTask` posts (lines 231-234): nothing when the title or the deadline is empty. */
  function SaveTaskPayload(f: TaskForm): (r: Option<JsonObject>)
    ensures r.None? <==> f.title == "" || f.deadline == ""
  {
    if f.title == "" || f.deadline == "" then None
    else Some([("TaskID", JStr(f.id)), ("Title", JStr(f.title)), ("Description", JStr(f.description)),
               ("Priority", JStr(f.priority)), ("Deadline", JStr(f.deadline)), ("Status", JStr(f.status)),
               ("AssignedTo", NormalizeAssignee(f.assignedTo))])
  }

  /** The same body with the member names of the server's TaskItem for the id and the due date. */
  function SaveTaskPayloadFixed(f: TaskForm): (r: Option<JsonObject>)
    ensures r.None? <==> f.title == "" || f.deadline == ""
  {
    if f.title == "" || f.deadline == "" then None else Some(FixedBody(f))
  }

  function FixedBody(f: TaskForm): JsonObject {
    [("Id", JStr(f.id)), ("Title", JStr(f.title)), ("Description", JStr(f.description)),
     ("Priority", JStr(f.priority)), ("DueDate", JStr(f.deadline)), ("Status", JStr(f.status)),
     ("AssignedTo", NormalizeAssignee(f.assignedTo))]
  }

  function NameMatches(name: string): ((string, JsonValue)) -> bool {
    (member: (string, JsonValue)) => EqualsIgnoreCase(member.0, name)
  }

  /**
   * The value the server's JSON reader binds to a property: member names
   * compare without regard to case, and when several members match, each is
   * assigned in turn, so the last one stays.
   */
  function Member(o: JsonObject, name: string): (v: Option<JsonValue>)
    ensures v.None? <==> forall m :: m in o ==> !EqualsIgnoreCase(m.0, name)
    ensures v.Some? ==>
      exists i :: 0 <= i < |o| && EqualsIgnoreCase(o[i].0, name) && o[i].1 == v.value
        && (forall j :: i < j < |o| ==> !EqualsIgnoreCase(o[j].0, name))
  {
    match LastOrDefault(o, NameMatches(name))
    case None => None
    case Some(m) => Some(m.1)
  }

  /** A value the reader refuses for an `int` property: null, or a string that is not an integer numeral. */
  predicate IntRejected(v: Option<JsonValue>) {
    v == Some(JNull) || (v.Some? && v.value.JStr? && !IsIntLiteral(v.value.str))
  }

  /** A value the reader refuses for an `int?` property: a string that is not an integer numeral. */
  predicate NullableIntRejected(v: Option<JsonValue>) {
    v.Some? && v.value.JStr? && !IsIntLiteral(v.value.str)
  }

  /** A value the reader refuses for a `string` property: a number. */
  predicate StringRejected(v: Option<JsonValue>) {
    v.Some? && v.value.JNum?
  }

  /** A value the reader refuses for a `DateTime` property: anything but a string it parses as a date. */
  predicate DateRejected(v: Option<JsonValue>, parseDate: string -> Option<DateTime>) {
    v.Some? && !(v.value.JStr? && parseDate(v.value.str).Some?)
  }

  // Binding of one member; None is a body the reader cannot read. The controller
  // has no automatic model validation, so the action then receives a null task
  // and fails at its first use of it.

  function BindInt(v: Option<JsonValue>, default: int): (r: Option<int>)
    ensures r.None? <==> IntRejected(v)
    ensures v.None? ==> r == Some(default)
    ensures r.Some? && v.Some? && v.value.JNum? ==> r.value == v.value.num
    ensures r.Some? && v.Some? && v.value.JStr? && IsIntLiteral(v.value.str) ==> r.value == ParseInt(v.value.str)
  {
    match v
    case None => Some(default)
    case Some(JNum(n)) => Some(n)
    case Some(JStr(s)) => if IsIntLiteral(s) then Some(ParseInt(s)) else None
    case Some(JNull) => None
  }

  function BindOptInt(v: Option<JsonValue>): (r: Option<Option<int>>)
    ensures r.None? <==> NullableIntRejected(v)
    ensures v.None? || v == Some(JNull) ==> r == Some(None)
    ensures r.Some? && v.Some? && v.value.JNum? ==> r.value == Some(v.value.num)
    ensures r.Some? && v.Some? && v.value.JStr? && IsIntLiteral(v.value.str) ==> r.value == Some(ParseInt(v.value.str))
  {
    match v
    case None => Some(None)
    case Some(JNull) => Some(None)
    case Some(JNum(n)) => Some(Some(n))
    case Some(JStr(s)) => if IsIntLiteral(s) then Some(Some(ParseInt(s))) else None
  }

  function BindString(v: Option<JsonValue>, default: string): (r: Option<string>)
    ensures r.None? <==> StringRejected(v)
    ensures v.None? ==> r == Some(default)
    ensures v == Some(JNull) ==> r == Some("")
    ensures v.Some? && v.value.JStr? ==> r == Some(v.value.str)
  {
    match v
    case None => Some(default)
    case Some(JStr(s)) => Some(s)
    case Some(JNull) => Some("")
    case Some(JNum(_)) => None
  }

  function BindOptString(v: Option<JsonValue>): (r: Option<Option<string>>)
    ensures r.None? <==> StringRejected(v)
    ensures v.None? || v == Some(JNull) ==> r == Some(None)
    ensures v.Some? && v.value.JStr? ==> r == Some(Some(v.value.str))
  {
    match v
    case None => Some(None)
    case Some(JStr(s)) => Some(Some(s))
    case Some(JNull) => Some(None)
    case Some(JNum(_)) => None
  }

  function BindDate(v: Option<JsonValue>, parseDate: string -> Option<DateTime>): (r: Option<DateTime>)
    ensures r.None? <==> DateRejected(v, parseDate)
    ensures v.None? ==> r == Some(MinValue)
    ensures v.Some? && v.value.JStr? ==> r == parseDate(v.value.str)
  {
    match v
    case None => Some(MinValue)
    case Some(JStr(s)) => parseDate(s)
    case Some(_) => None
  }

  /**
   * The `[FromBody] TaskItem` of `SaveTask`: each property the body names is
   * read, the others keep the values of `new TaskItem()`. `parseDate` is the
   * reader's ISO 8601 date parser.
   */
  function BindTask(o: JsonObject, parseDate: string -> Option<DateTime>): (r: Option<TaskItem>)
    // the body is unreadable iff some property's value is refused
    ensures r.None? <==>
      || IntRejected(Member(o, "Id")) || StringRejected(Member(o, "Title"))
      || StringRejected(Member(o, "Description")) || StringRejected(Member(o, "Priority"))
      || DateRejected(Member(o, "DueDate"), parseDate) || StringRejected(Member(o, "Status"))
      || IntRejected(Member(o, "ProjectId")) || NullableIntRejected(Member(o, "AssignedTo"))
      || IntRejected(Member(o, "CreatedBy"))
    // a property the body does not name keeps the default of `new TaskItem()`
    ensures r.Some? ==>
      && (Member(o, "Id").None? ==> r.value.id == 0)
      && (Member(o, "Title").None? ==> r.value.title == "")
      && (Member(o, "Description").None? ==> r.value.description == None)
      && (Member(o, "Priority").None? ==> r.value.priority == "Medium")
      && (Member(o, "DueDate").None? ==> r.value.dueDate == MinValue)
      && (Member(o, "Status").None? ==> r.value.status == "Todo")
      && (Member(o, "ProjectId").None? ==> r.value.projectId == 0)
      && (Member(o, "AssignedTo").None? ==> r.value.assignedTo == None)
      && (Member(o, "CreatedBy").None? ==> r.value.createdBy == 0)
  {
    BindMembersFields(Member(o, "Id"), Member(o, "Title"), Member(o, "Description"), Member(o, "Priority"),
                     Member(o, "DueDate"), Member(o, "Status"), Member(o, "ProjectId"), Member(o, "AssignedTo"),
                     Member(o, "CreatedBy"), parseDate);
    BindMembers(Member(o, "Id"), Member(o, "Title"), Member(o, "Description"), Member(o, "Priority"),
                Member(o, "DueDate"), Member(o, "Status"), Member(o, "ProjectId"), Member(o, "AssignedTo"),
                Member(o, "CreatedBy"), parseDate)
  }

  /** The task bound from the values the body gives its nine properties (None where it names none). */
  function BindMembers(id: Option<JsonValue>, title: Option<JsonValue>, description: Option<JsonValue>,
                       priority: Option<JsonValue>, dueDate: Option<JsonValue>, status: Option<JsonValue>,
                       projectId: Option<JsonValue>, assignedTo: Option<JsonValue>, createdBy: Option<JsonValue>,
                       parseDate: string -> Option<DateTime>): Option<TaskItem> {
    var d := DefaultTask;
    var id, title := BindInt(id, d.id), BindString(title, d.title);
    var description, priority := BindOptString(description), BindString(priority, d.priority);
    var dueDate, status := BindDate(dueDate, parseDate), BindString(status, d.status);
    var projectId, assignedTo := BindInt(projectId, d.projectId), BindOptInt(assignedTo);
    var createdBy := BindInt(createdBy, d.createdBy);
    if id.None? || title.None? || description.None? || priority.None? || dueDate.None? || status.None?
       || projectId.None? || assignedTo.None? || createdBy.None?
    then None
    else Some(TaskItem(id.value, title.value, description.value, priority.value, dueDate.value, status.value,
                       projectId.value, assignedTo.value, createdBy.value))
  }

  /** The task is bound iff every property is, and then each field holds its own binding. */
  lemma BindMembersFields(id: Option<JsonValue>, title: Option<JsonValue>, description: Option<JsonValue>,
                          priority: Option<JsonValue>, dueDate: Option<JsonValue>, status: Option<JsonValue>,
                          projectId: Option<JsonValue>, assignedTo: Option<JsonValue>, createdBy: Option<JsonValue>,
                          parseDate: string -> Option<DateTime>)
    ensures var r := BindMembers(id, title, description, priority, dueDate, status, projectId, assignedTo, createdBy, parseDate);
      r.None? <==>
        || BindInt(id, 0).None? || BindString(title, "").None? || BindOptString(description).None?
        || BindString(priority, "Medium").None? || BindDate(dueDate, parseDate).None? || BindString(status, "Todo").None?
        || BindInt(projectId, 0).None? || BindOptInt(assignedTo).None? || BindInt(createdBy, 0).None?
    ensures var r := BindMembers(id, title, description, priority, dueDate, status, projectId, assignedTo, createdBy, parseDate);
      r.Some? ==>
        && BindInt(id, 0) == Some(r.value.id) && BindString(title, "") == Some(r.value.title)
        && BindOptString(description) == Some(r.value.description) && BindString(priority, "Medium") == Some(r.value.priority)
        && BindDate(dueDate, parseDate) == Some(r.value.dueDate) && BindString(status, "Todo") == Some(r.value.status)
        && BindInt(projectId, 0) == Some(r.value.projectId) && BindOptInt(assignedTo) == Some(r.value.assignedTo)
        && BindInt(createdBy, 0) == Some(r.value.createdBy)
  {
  }

  /** A string member is bound as it is written, a null one as "" (or no description), a date through the parser. */
  lemma BindTaskStrings(o: JsonObject, parseDate: string -> Option<DateTime>)
    ensures var r := BindTask(o, parseDate); r.Some? ==>
      && (Member(o, "Title").Some? && Member(o, "Title").value.JStr? ==> r.value.title == Member(o, "Title").value.str)
      && (Member(o, "Description").Some? && Member(o, "Description").value.JStr? ==>
            r.value.description == Some(Member(o, "Description").value.str))
      && (Member(o, "Priority").Some? && Member(o, "Priority").value.JStr? ==>
            r.value.priority == Member(o, "Priority").value.str)
      && (Member(o, "Status").Some? && Member(o, "Status").value.JStr? ==> r.value.status == Member(o, "Status").value.str)
      && (Member(o, "DueDate").Some? && Member(o, "DueDate").value.JStr? ==>
            parseDate(Member(o, "DueDate").value.str) == Some(r.value.dueDate))
    ensures var r := BindTask(o, parseDate); r.Some? ==>
      && (Member(o, "Title") == Some(JNull) ==> r.value.title == "")
      && (Member(o, "Description") == Some(JNull) ==> r.value.description == None)
      && (Member(o, "Priority") == Some(JNull) ==> r.value.priority == "")
      && (Member(o, "Status") == Some(JNull) ==> r.value.status == "")
  {
    BindMembersFields(Member(o, "Id"), Member(o, "Title"), Member(o, "Description"), Member(o, "Priority"),
                     Member(o, "DueDate"), Member(o, "Status"), Member(o, "ProjectId"), Member(o, "AssignedTo"),
                     Member(o, "CreatedBy"), parseDate);
  }

  /** A numeric member is bound to the number, or to the value of the numeral a string member writes. */
  lemma BindTaskNumbers(o: JsonObject, parseDate: string -> Option<DateTime>)
    ensures var r := BindTask(o, parseDate); r.Some? ==>
      && (Member(o, "Id").Some? && Member(o, "Id").value.JNum? ==> r.value.id == Member(o, "Id").value.num)
      && (Member(o, "ProjectId").Some? && Member(o, "ProjectId").value.JNum? ==>
            r.value.projectId == Member(o, "ProjectId").value.num)
      && (Member(o, "CreatedBy").Some? && Member(o, "CreatedBy").value.JNum? ==>
            r.value.createdBy == Member(o, "CreatedBy").value.num)
      && (Member(o, "AssignedTo").Some? && Member(o, "AssignedTo").value.JNum? ==>
            r.value.assignedTo == Some(Member(o, "AssignedTo").value.num))
      && (Member(o, "AssignedTo") == Some(JNull) ==> r.value.assignedTo == None)
    ensures var r := BindTask(o, parseDate); r.Some? ==>
      && (Member(o, "Id").Some? && Member(o, "Id").value.JStr? && IsIntLiteral(Member(o, "Id").value.str) ==>
            r.value.id == ParseInt(Member(o, "Id").value.str))
      && (Member(o, "ProjectId").Some? && Member(o, "ProjectId").value.JStr? && IsIntLiteral(Member(o, "ProjectId").value.str) ==>
            r.value.projectId == ParseInt(Member(o, "ProjectId").value.str))
      && (Member(o, "CreatedBy").Some? && Member(o, "CreatedBy").value.JStr? && IsIntLiteral(Member(o, "CreatedBy").value.str) ==>
            r.value.createdBy == ParseInt(Member(o, "CreatedBy").value.str))
      && (Member(o, "AssignedTo").Some? && Member(o, "AssignedTo").value.JStr? && IsIntLiteral(Member(o, "AssignedTo").value.str) ==>
            r.value.assignedTo == Some(ParseInt(Member(o, "AssignedTo").value.str)))
  {
    BindMembersFields(Member(o, "Id"), Member(o, "Title"), Member(o, "Description"), Member(o, "Priority"),
                     Member(o, "DueDate"), Member(o, "Status"), Member(o, "ProjectId"), Member(o, "AssignedTo"),
                     Member(o, "CreatedBy"), parseDate);
  }

  /**
   * As written, no member of the body is named Id or DueDate in any casing, so
   * the server reads Id 0 and DueDate `MinValue`: every save from the dashboard
   * takes the create branch of `SaveTask`, due a week from the save.
   */
  lemma SaveTaskPayloadDropsIdAndDueDate(f: TaskForm, parseDate: string -> Option<DateTime>)
    requires SaveTaskPayload(f).Some?
    ensures Member(SaveTaskPayload(f).value, "Id").None?
    ensures Member(SaveTaskPayload(f).value, "DueDate").None?
    ensures BindTask(SaveTaskPayload(f).value, parseDate).Some? ==>
      BindTask(SaveTaskPayload(f).value, parseDate).value.id == 0
      && BindTask(SaveTaskPayload(f).value, parseDate).value.dueDate == MinValue
  {
    var o := SaveTaskPayload(f).value;
    forall m | m in o ensures |m.0| != |"Id"| && |m.0| != |"DueDate"| { }
  }

  /** Every member name of the corrected body has a length of its own, so each is found where it is written. */
  lemma FixedMember(f: TaskForm, k: nat)
    requires k < 7
    ensures Member(FixedBody(f), FixedBody(f)[k].0) == Some(FixedBody(f)[k].1)
  {
    var o := FixedBody(f);
    assert |o[0].0| == 2 && |o[1].0| == 5 && |o[2].0| == 11 && |o[3].0| == 8;
    assert |o[4].0| == 7 && |o[5].0| == 6 && |o[6].0| == 10;
    MemberByLength(o, o[k].0, k);
  }

  /** The corrected body names neither ProjectId nor CreatedBy. */
  lemma FixedBodyOmits(f: TaskForm)
    ensures Member(FixedBody(f), "ProjectId").None? && Member(FixedBody(f), "CreatedBy").None?
  {
    var o := FixedBody(f);
    forall m | m in o ensures |m.0| != |"ProjectId"| && |m.0| != |"CreatedBy"| { }
  }

  /**
   * With the server's member names, the form's id and deadline reach the
   * server: an id the server wrote selects the edit branch, and the deadline
   * is the due date.
   */
  lemma SaveTaskPayloadFixedBinds(f: TaskForm, parseDate: string -> Option<DateTime>, due: DateTime)
    requires SaveTaskPayloadFixed(f).Some?
    requires IsIntLiteral(f.id) && parseDate(f.deadline) == Some(due)
    ensures BindTask(SaveTaskPayloadFixed(f).value, parseDate) ==
      Some(TaskItem(ParseInt(f.id), f.title, Some(f.description), f.priority, due, f.status, 0,
                    match NormalizeAssignee(f.assignedTo) case JNum(n) => Some(n) case _ => None, 0))
  {
    var o := FixedBody(f);
    FixedMember(f, 0);
    FixedMember(f, 1);
    FixedMember(f, 2);
    FixedMember(f, 3);
    FixedMember(f, 4);
    FixedMember(f, 5);
    FixedMember(f, 6);
    FixedBodyOmits(f);
    assert o[0].0 == "Id" && o[1].0 == "Title" && o[2].0 == "Description" && o[3].0 == "Priority";
    assert o[4].0 == "DueDate" && o[5].0 == "Status" && o[6].0 == "AssignedTo";
    BindTaskOfStrings(o, parseDate, f.id, f.title, f.description, f.priority, due, f.status, NormalizeAssignee(f.assignedTo));
  }

  /**
   * A body that writes the id as a numeral, the title, description, priority and
   * status as strings, a due date the reader parses, and names no project or
   * creator binds to exactly those values.
   */
  lemma BindTaskOfStrings(o: JsonObject, parseDate: string -> Option<DateTime>, id: string, title: string,
                          description: string, priority: string, due: DateTime, status: string, assignee: JsonValue)
    requires IsIntLiteral(id) && Member(o, "Id") == Some(JStr(id))
    requires Member(o, "Title") == Some(JStr(title)) && Member(o, "Description") == Some(JStr(description))
    requires Member(o, "Priority") == Some(JStr(priority)) && Member(o, "Status") == Some(JStr(status))
    requires Member(o, "DueDate").Some? && Member(o, "DueDate").value.JStr? && parseDate(Member(o, "DueDate").value.str) == Some(due)
    requires Member(o, "AssignedTo") == Some(assignee) && (assignee.JNull? || assignee.JNum?)
    requires Member(o, "ProjectId").None? && Member(o, "CreatedBy").None?
    ensures BindTask(o, parseDate) ==
      Some(TaskItem(ParseInt(id), title, Some(description), priority, due, status, 0,
                    match assignee case JNum(n) => Some(n) case _ => None, 0))
  {
    assert BindTask(o, parseDate) ==
      BindMembers(Some(JStr(id)), Some(JStr(title)), Some(JStr(description)), Some(JStr(priority)),
                  Member(o, "DueDate"), Some(JStr(status)), None, Some(assignee), None, parseDate);
  }

  /** A lookup finds the last member whose name matches; members of another name length never match. */
  lemma MemberByLength(o: JsonObject, name: string, k: nat)
    requires k < |o| && o[k].0 == name
    requires forall j :: k < j < |o| ==> |o[j].0| != |name|
    ensures Member(o, name) == Some(o[k].1)
  {
    assert EqualsIgnoreCase(o[k].0, name);
    var i :| 0 <= i < |o| && EqualsIgnoreCase(o[i].0, name) && o[i].1 == Member(o, name).value
      && (forall j :: i < j < |o| ==> !EqualsIgnoreCase(o[j].0, name));
    if k < i {
      assert |o[i].0| != |name|;
    }
  }

  // ---------------------------------------------------------------------------
  // loadTasks: priority badge
  // ---------------------------------------------------------------------------

  /** Lines 95-96: the badge class of a priority. */
  function BadgeClass(priority: string): (badge: string)
    ensures badge == "bg-danger" <==> priority == "High"
    ensures badge == "bg-warning text-dark" <==> priority == "Medium"
    ensures badge == "bg-success" <==> priority != "High" && priority != "Medium"
  {
    if priority == "High" then "bg-danger"
    else if priority == "Medium" then "bg-warning text-dark"
    else "bg-success"
  }

  // ---------------------------------------------------------------------------
  // loadNotifications: one line of the bell menu
  // ---------------------------------------------------------------------------

  datatype AlertLine = AlertLine(icon: string, colorClass: string, message: string)

  const OverdueIcon := "<i class=\"fa-solid fa-triangle-exclamation\"></i>"
  const TodayIcon := "<i class=\"fa-solid fa-calendar-day\"></i>"
  const TomorrowIcon := "<i class=\"fa-solid fa-hourglass-half\"></i>"

  /** Lines 153-156: overdue first, then due today, otherwise due tomorrow. */
  function AlertFor(n: Notification): (a: AlertLine)
    ensures n.isOverdue ==> a == AlertLine(OverdueIcon, "text-danger fw-bold", "Overdue: " + n.title)
    ensures !n.isOverdue && n.isDueToday ==> a == AlertLine(TodayIcon, "text-warning fw-bold", "Due Today: " + n.title)
    ensures !n.isOverdue && !n.isDueToday ==> a == AlertLine(TomorrowIcon, "text-primary", "Due Tomorrow: " + n.title)
  {
    var icon := if n.isOverdue then OverdueIcon else if n.isDueToday then TodayIcon else TomorrowIcon;
    var colorClass := if n.isOverdue then "text-danger fw-bold" else if n.isDueToday then "text-warning fw-bold" else "text-primary";
    var message := if n.isOverdue then "Overdue: " + n.title
      else if n.isDueToday then "Due Today: " + n.title
      else "Due Tomorrow: " + n.title;
    AlertLine(icon, colorClass, message)
  }

  /** Every line the bell shows names the day the server's notification is due on. */
  lemma AlertsMatchDueDates(tasks: seq<TaskItem>, claims: seq<Claim>, today: DateTime)
    requires NumericClaim(claims, NameIdentifierClaim)
    ensures forall n :: n in GetMyNotifications(tasks, claims, today) ==>
      && (AlertFor(n).colorClass == "text-danger fw-bold" <==> n.dueDate < today)
      && (AlertFor(n).colorClass == "text-warning fw-bold" <==> n.dueDate == today)
      && (AlertFor(n).colorClass == "text-primary" <==> n.dueDate == AddDays(today, 1))
  {
    forall n | n in GetMyNotifications(tasks, claims, today)
      ensures n.dueDate < today || n.dueDate == today || n.dueDate == AddDays(today, 1)
    {
      var t :| t in tasks && DueSoon(GetUserId(claims), today)(t) && n == NotificationOf(today)(t);
    }
  }

  // ---------------------------------------------------------------------------
  // loadChart
  // ---------------------------------------------------------------------------

  datatype ChartData = ChartData(labels: seq<string>, counts: seq<nat>, colors: seq<string>)

  function ChartLabel(row: StatRow): string {
    if row.name == "Unassigned" then "Unassigned" else row.name + " (" + row.email + ")"
  }

  /** Lines 123-128: labels, counts and colours, one per statistics row, in the rows' order. */
  function Chart(stats: seq<StatRow>): (chart: ChartData)
    ensures |chart.labels| == |stats| && |chart.counts| == |stats| && |chart.colors| == |stats|
    ensures forall i :: 0 <= i < |stats| ==>
      && chart.labels[i] == ChartLabel(stats[i])
      && chart.counts[i] == stats[i].count
      && chart.colors[i] == ColorOf(stats[i].email)
  {
    ChartData(
      seq(|stats|, i requires 0 <= i < |stats| => ChartLabel(stats[i])),
      seq(|stats|, i requires 0 <= i < |stats| => stats[i].count),
      seq(|stats|, i requires 0 <= i < |stats| => ColorOf(stats[i].email)))
  }

  function SumNats(s: seq<nat>): nat {
    if s == [] then 0 else SumNats(s[..|s| - 1]) + s[|s| - 1]
  }

  lemma {:induction false} ChartCountsSum(stats: seq<StatRow>)
    ensures SumNats(Chart(stats).counts) == SumCounts(stats)
    decreases |stats|
  {
    if stats != [] {
      var init := stats[..|stats| - 1];
      ChartCountsSum(init);
      assert Chart(stats).counts[..|stats| - 1] == Chart(init).counts;
    }
  }

  /**
   * The pie shows every open task of the project once, and when some open task
   * has no assignee one slice is labelled "Unassigned" in the placeholder colour.
   */
  lemma ChartOfStats(tasks: seq<TaskItem>, users: seq<User>, claims: seq<Claim>)
    requires NumericClaim(claims, ProjectIdClaim)
    ensures SumNats(Chart(GetTaskStats(tasks, users, claims)).counts) == |Where(tasks, OpenIn(GetProjectId(claims)))|
    ensures (exists t :: t in tasks && OpenIn(GetProjectId(claims))(t) && AssignedUser(users, t.assignedTo).None?) ==>
      exists i :: 0 <= i < |GetTaskStats(tasks, users, claims)|
        && Chart(GetTaskStats(tasks, users, claims)).labels[i] == "Unassigned"
        && Chart(GetTaskStats(tasks, users, claims)).colors[i] == Placeholder
  {
    var stats := GetTaskStats(tasks, users, claims);
    ChartCountsSum(stats);
    GetTaskStatsTotal(tasks, users, claims);
    GetTaskStatsCorrect(tasks, users, claims);
    var groups := WorkloadGroups(tasks, users, GetProjectId(claims));
    if exists t :: t in tasks && OpenIn(GetProjectId(claims))(t) && AssignedUser(users, t.assignedTo).None? {
      assert None in Keys(groups);
      var i :| 0 <= i < |groups| && Keys(groups)[i] == None;
      assert stats[i].name == "Unassigned" && stats[i].email == "";
    }
  }
}

=== FILE: tasks_controller.dfy ===
/**
 * The task API of the dashboard. Every action derives the caller's user id,
 * role and project from the session's claims; the queries are functions of the
 * tables, the actions that change data are methods on the database context.
 */
module TasksController {
  import opened Options
  import opened Text
  import opened Linq
  import opened Entities
  import opened Store

  /**
   * The answer of an action. ServerError is an exception out of
   * `SaveChangesAsync` (status 500): the database refused the commit and
   * nothing was saved.
   */
  datatype ActionResult = Ok | NotFound | Forbid | RedirectToIndex | SignOutAndRedirectToRegister | ServerError

  // ---------------------------------------------------------------------------
  // Claims
  // ---------------------------------------------------------------------------

  /** The claim, when present, is a numeral `int.Parse` accepts (it throws otherwise). */
  predicate NumericClaim(claims: seq<Claim>, claimType: string) {
    match FindFirst(claims, claimType)
    case None => true
    case Some(c) => IsIntLiteral(c.value)
  }

  function ClaimAsInt(claims: seq<Claim>, claimType: string): (n: int)
    requires NumericClaim(claims, claimType)
    ensures FindFirst(claims, claimType).None? ==> n == 0
    ensures FindFirst(claims, claimType).Some? ==> n == ParseInt(FindFirst(claims, claimType).value.value)
  {
    match FindFirst(claims, claimType)
    case None => 0
    case Some(c) => ParseInt(c.value)
  }

  /** `GetUserId()`: the NameIdentifier claim as a number, 0 when the claim is missing. */
  function GetUserId(claims: seq<Claim>): int
    requires NumericClaim(claims, NameIdentifierClaim)
  {
    ClaimAsInt(claims, NameIdentifierClaim)
  }

  /** `GetProjectId()`: the ProjectId claim as a number, 0 when the claim is missing. */
  function GetProjectId(claims: seq<Claim>): int
    requires NumericClaim(claims, ProjectIdClaim)
  {
    ClaimAsInt(claims, ProjectIdClaim)
  }

  /** The role test of every admin-only action: a Role claim whose value is "Admin". */
  predicate IsAdmin(claims: seq<Claim>) {
    RoleOf(claims) == Some("Admin")
  }

  // ---------------------------------------------------------------------------
  // 1. Dashboard view
  // ---------------------------------------------------------------------------

  datatype Dashboard = Dashboard(
    currentUserId: Option<int>,
    userRole: Option<string>,
    teamName: Option<string>,
    inviteCode: Option<string>,
    adminName: string,
    usersList: seq<User>)

  /** The position of the project row with key `pid`, when there is one. */
  function ProjectIndex(projects: seq<Project>, pid: int): Option<nat> {
    FirstIndex(projects, (p: Project) => p.id == pid)
  }

  function TeamAdmin(pid: int): User -> bool {
    (u: User) => u.projectId == pid && u.role == "Admin"
  }

  function MemberOf(pid: int): User -> bool {
    (u: User) => u.projectId == pid
  }

  /** The name shown as the team's admin: the first admin of project `pid`, or "System" when it has none. */
  function AdminName(users: seq<User>, pid: int): (name: string)
    ensures (forall u :: u in users && u.projectId == pid ==> u.role != "Admin") ==> name == "System"
    ensures (exists u :: u in users && u.projectId == pid && u.role == "Admin") ==>
      exists i :: 0 <= i < |users| && users[i].projectId == pid && users[i].role == "Admin" && name == users[i].fullName
        && (forall j :: 0 <= j < i ==> !(users[j].projectId == pid && users[j].role == "Admin"))
  {
    match FirstOrDefault(users, TeamAdmin(pid))
    case None => "System"
    case Some(a) => a.fullName
  }

  /** The project row with key `pid`, when there is one. */
  function ProjectOf(projects: seq<Project>, pid: int): (r: Option<Project>)
    ensures r.Some? <==> exists p :: p in projects && p.id == pid
    ensures r.Some? ==> r.value in projects && r.value.id == pid
  {
    match ProjectIndex(projects, pid)
    case None =>
      assert forall p :: p in projects ==> p.id != pid;
      None
    case Some(i) => Some(projects[i])
  }

  /** `ViewBag.CurrentUserId`: set only when the NameIdentifier claim is present, to its value. */
  function CurrentUserId(claims: seq<Claim>): (r: Option<int>)
    requires NumericClaim(claims, NameIdentifierClaim)
    ensures r.Some? <==> FindFirst(claims, NameIdentifierClaim).Some?
    ensures r.Some? ==> r.value == GetUserId(claims)
  {
    match FindFirst(claims, NameIdentifierClaim)
    case None => None
    case Some(c) => Some(ParseInt(c.value))
  }

  /** The page values for the caller with user id `currentUserId`, role `role` and project `pid`. */
  function DashboardFor(users: seq<User>, projects: seq<Project>, currentUserId: Option<int>, role: Option<string>, pid: int)
    : (d: Dashboard)
    ensures d.currentUserId == currentUserId && d.userRole == role
    ensures (forall u :: u in users && u.projectId == pid ==> u.role != "Admin") ==> d.adminName == "System"
    ensures (exists u :: u in users && u.projectId == pid && u.role == "Admin") ==>
      exists i :: 0 <= i < |users| && users[i].projectId == pid && users[i].role == "Admin" && d.adminName == users[i].fullName
        && (forall j :: 0 <= j < i ==> !(users[j].projectId == pid && users[j].role == "Admin"))
    ensures forall u :: u in d.usersList <==> u in users && u.projectId == pid
    ensures d.teamName.Some? <==> exists p :: p in projects && p.id == pid
    ensures d.teamName.Some? ==>
      exists p :: p in projects && p.id == pid && d.teamName == Some(p.name) && d.inviteCode == Some(p.inviteCode)
    ensures d.inviteCode.Some? <==> d.teamName.Some?
  {
    var project := ProjectOf(projects, pid);
    Dashboard(
      currentUserId,
      role,
      match project case None => None case Some(p) => Some(p.name),
      match project case None => None case Some(p) => Some(p.inviteCode),
      AdminName(users, pid),
      Where(users, MemberOf(pid)))
  }

  /** `Index()`: the values the dashboard page is rendered from. */
  function Index(users: seq<User>, projects: seq<Project>, claims: seq<Claim>): (d: Dashboard)
    requires NumericClaim(claims, NameIdentifierClaim) && NumericClaim(claims, ProjectIdClaim)
    ensures var pid := GetProjectId(claims);
      && ((forall u :: u in users && u.projectId == pid ==> u.role != "Admin") ==> d.adminName == "System")
      && ((exists u :: u in users && u.projectId == pid && u.role == "Admin") ==>
            exists i :: 0 <= i < |users| && users[i].projectId == pid && users[i].role == "Admin" && d.adminName == users[i].fullName
              && (forall j :: 0 <= j < i ==> !(users[j].projectId == pid && users[j].role == "Admin")))
      && (forall u :: u in d.usersList <==> u in users && u.projectId == pid)
      && (d.teamName.Some? <==> exists p :: p in projects && p.id == pid)
      && (d.teamName.Some? ==> exists p :: p in projects && p.id == pid && d.teamName == Some(p.name) && d.inviteCode == Some(p.inviteCode))
      && (d.inviteCode.Some? <==> d.teamName.Some?)
    ensures d.currentUserId.Some? <==> FindFirst(claims, NameIdentifierClaim).Some?
    ensures d.currentUserId.Some? ==> d.currentUserId.value == GetUserId(claims)
    ensures d.userRole == RoleOf(claims)
  {
    DashboardFor(users, projects, CurrentUserId(claims), RoleOf(claims), GetProjectId(claims))
  }

  // ---------------------------------------------------------------------------
  // 2. GetTasks: search and listing
  // ---------------------------------------------------------------------------

  datatype TaskRow = TaskRow(
    id: int,
    title: string,
    description: Option<string>,
    priority: string,
    status: string,
    deadline: nat,
    assignedTo: Option<int>,
    assignedToName: string,
    assignedToEmail: string,
    canManage: bool)

  /** The search test: the lower-cased term occurs in the title, the description or the assignee's name. */
  predicate SearchHit(t: TaskItem, assignee: Option<User>, lowerTerm: string) {
    || Contains(ToLower(t.title), lowerTerm)
    || (t.description.Some? && Contains(ToLower(t.description.value), lowerTerm))
    || (assignee.Some? && Contains(ToLower(assignee.value.fullName), lowerTerm))
  }

  /** The rows GetTasks lists: the caller's project, narrowed by the term when it is not empty. */
  function Listed(users: seq<User>, pid: int, term: string): TaskItem -> bool {
    (t: TaskItem) => t.projectId == pid && (term == "" || SearchHit(t, AssignedUser(users, t.assignedTo), ToLower(term)))
  }

  /**
   * The row a task is listed as: its own fields, the deadline as a day, and the
   * name and e-mail of its assigned user ("Unassigned" and "" when there is none).
   */
  function RowOf(t: TaskItem, users: seq<User>, canManage: bool): (r: TaskRow)
    ensures r.id == t.id && r.title == t.title && r.description == t.description
    ensures r.priority == t.priority && r.status == t.status && r.deadline == DayOf(t.dueDate)
    ensures r.assignedTo == t.assignedTo && r.canManage == canManage
    ensures AssignedUser(users, t.assignedTo).None? ==> r.assignedToName == "Unassigned" && r.assignedToEmail == ""
    ensures AssignedUser(users, t.assignedTo).Some? ==>
      exists u :: u in users && Some(u.id) == t.assignedTo && r.assignedToName == u.fullName && r.assignedToEmail == u.email
  {
    var assignee := AssignedUser(users, t.assignedTo);
    TaskRow(t.id, t.title, t.description, t.priority, t.status, DayOf(t.dueDate), t.assignedTo,
      match assignee case None => "Unassigned" case Some(u) => u.fullName,
      match assignee case None => "" case Some(u) => u.email,
      canManage)
  }

  /** The projection of the selected tasks, one row each and in the same order. */
  function RowsOf(selected: seq<TaskItem>, users: seq<User>, canManage: bool): (rows: seq<TaskRow>)
    ensures |rows| == |selected|
    ensures forall i :: 0 <= i < |selected| ==> rows[i] == RowOf(selected[i], users, canManage)
    ensures forall row :: row in rows ==> exists t :: t in selected && row == RowOf(t, users, canManage)
  {
    var rows := seq(|selected|, i requires 0 <= i < |selected| => RowOf(selected[i], users, canManage));
    assert forall row :: row in rows ==> exists i :: 0 <= i < |selected| && row == rows[i];
    assert forall i :: 0 <= i < |selected| ==> selected[i] in selected;
    rows
  }

  /**
   * `GetTasks(term)`; a null term is passed as "". Row i is the row of the
   * i-th listed task in storage order.
   */
  function GetTasks(tasks: seq<TaskItem>, users: seq<User>, claims: seq<Claim>, term: string): (rows: seq<TaskRow>)
    requires NumericClaim(claims, ProjectIdClaim)
    ensures |rows| == |Where(tasks, Listed(users, GetProjectId(claims), term))|
    ensures forall i :: 0 <= i < |rows| ==>
      rows[i] == RowOf(Where(tasks, Listed(users, GetProjectId(claims), term))[i], users, IsAdmin(claims))
    ensures forall row :: row in rows ==> row.canManage == IsAdmin(claims)
    ensures forall row :: row in rows ==>
      exists t :: t in tasks && t.projectId == GetProjectId(claims) && row == RowOf(t, users, IsAdmin(claims))
  {
    RowsOf(Where(tasks, Listed(users, GetProjectId(claims), term)), users, IsAdmin(claims))
  }

  /** A row with a given id is listed exactly when a selected task has that id. */
  lemma RowsOfIds(selected: seq<TaskItem>, users: seq<User>, canManage: bool, id: int)
    ensures (exists row :: row in RowsOf(selected, users, canManage) && row.id == id) <==>
      (exists t :: t in selected && t.id == id)
  {
    var rows := RowsOf(selected, users, canManage);
    if exists row :: row in rows && row.id == id {
      var row :| row in rows && row.id == id;
      var t :| t in selected && row == RowOf(t, users, canManage);
      assert t.id == id;
    }
    if exists t :: t in selected && t.id == id {
      var t :| t in selected && t.id == id;
      var i :| 0 <= i < |selected| && selected[i] == t;
      assert rows[i] in rows && rows[i].id == id;
    }
  }

  /**
   * A task of the store is listed exactly when it belongs to the caller's project
   * and the term is empty or matches it.
   */
  lemma GetTasksSearch(tasks: seq<TaskItem>, users: seq<User>, claims: seq<Claim>, term: string, t: TaskItem)
    requires NumericClaim(claims, ProjectIdClaim)
    requires DistinctBy(tasks, KeyOfTask) && t in tasks
    ensures (exists row :: row in GetTasks(tasks, users, claims, term) && row.id == t.id) <==>
      (t.projectId == GetProjectId(claims) && (term == "" || SearchHit(t, AssignedUser(users, t.assignedTo), ToLower(term))))
  {
    var selected := Where(tasks, Listed(users, GetProjectId(claims), term));
    assert GetTasks(tasks, users, claims, term) == RowsOf(selected, users, IsAdmin(claims));
    RowsOfIds(selected, users, IsAdmin(claims), t.id);
    if exists s :: s in selected && s.id == t.id {
      var s :| s in selected && s.id == t.id;
      var a :| 0 <= a < |tasks| && tasks[a] == s;
      var b :| 0 <= b < |tasks| && tasks[b] == t;
      assert KeyOfTask(tasks[a]) == KeyOfTask(tasks[b]);
    }
  }

  /** An empty term lists every task of the caller's project. */
  lemma GetTasksEmptyTerm(tasks: seq<TaskItem>, users: seq<User>, claims: seq<Claim>)
    requires NumericClaim(claims, ProjectIdClaim)
    ensures |GetTasks(tasks, users, claims, "")| == |Where(tasks, InProject(GetProjectId(claims)))|
  {
    var pid := GetProjectId(claims);
    WhereSame(tasks, Listed(users, pid, ""), InProject(pid));
  }

  function InProject(pid: int): TaskItem -> bool {
    (t: TaskItem) => t.projectId == pid
  }

  /** Two filters that agree on every row select the same rows. */
  lemma {:induction false} WhereSame<T(!new)>(s: seq<T>, p: T -> bool, q: T -> bool)
    requires forall x :: p(x) == q(x)
    ensures Where(s, p) == Where(s, q)
    decreases |s|
  {
    if s != [] {
      WhereSame(s[..|s| - 1], p, q);
    }
  }

  // ---------------------------------------------------------------------------
  // 3. SaveTask: create or edit
  // ---------------------------------------------------------------------------

  /** An unset due date (`DateTime.MinValue`) becomes a week after `now`; the result is never unset. */
  function DueOrDefault(dueDate: DateTime, now: DateTime): (r: DateTime)
    ensures r != MinValue
    ensures dueDate != MinValue ==> r == dueDate
    ensures dueDate == MinValue ==> r == AddDays(now, 7)
  {
    if dueDate == MinValue then AddDays(now, 7) else dueDate
  }

  /** The task an edit or delete may touch: same id, and in the caller's project. */
  function TaskIndex(tasks: seq<TaskItem>, id: int, pid: int): Option<nat> {
    FirstIndex(tasks, (t: TaskItem) => t.id == id && t.projectId == pid)
  }

  /** The assignee names no stored user, so the foreign key of `AssignedTo` refuses it. */
  predicate UnknownAssignee(users: seq<User>, assignedTo: Option<int>) {
    assignedTo.Some? && forall u :: u in users ==> u.id != assignedTo.value
  }

  /**
   * `SaveTask(task)`. Id 0 inserts the task under a fresh key in the caller's
   * project; any other id overwrites title, description, status, priority,
   * assignee and due date of that task of the caller's project, or answers
   * NotFound and changes nothing. An assignee that is no stored user makes
   * the commit fail, and nothing changes.
   */
  method SaveTask(db: AppDbContext, claims: seq<Claim>, task: TaskItem, now: DateTime) returns (result: ActionResult)
    requires db.Valid() && NumericClaim(claims, ProjectIdClaim)
    modifies db
    ensures db.Valid()
    ensures db.users == old(db.users) && db.projects == old(db.projects)
    ensures db.nextUserId == old(db.nextUserId) && db.nextProjectId == old(db.nextProjectId)
    ensures forall t :: t in old(db.tasks) && t.projectId != GetProjectId(claims) ==> t in db.tasks
    ensures task.id == 0 && UnknownAssignee(old(db.users), task.assignedTo) ==>
      result == ServerError && db.tasks == old(db.tasks) && db.nextTaskId == old(db.nextTaskId)
    ensures task.id == 0 && !UnknownAssignee(old(db.users), task.assignedTo) ==>
      && result == Ok
      && db.nextTaskId == old(db.nextTaskId) + 1
      && db.tasks == old(db.tasks) +
           [task.(id := old(db.nextTaskId), projectId := GetProjectId(claims), dueDate := DueOrDefault(task.dueDate, now))]
    ensures task.id != 0 ==> db.nextTaskId == old(db.nextTaskId)
    ensures task.id != 0 && TaskIndex(old(db.tasks), task.id, GetProjectId(claims)).None? ==>
      result == NotFound && db.tasks == old(db.tasks)
    ensures && task.id != 0 && TaskIndex(old(db.tasks), task.id, GetProjectId(claims)).Some?
            && UnknownAssignee(old(db.users), task.assignedTo)
            ==>
      result == ServerError && db.tasks == old(db.tasks)
    ensures && task.id != 0 && TaskIndex(old(db.tasks), task.id, GetProjectId(claims)).Some?
            && !UnknownAssignee(old(db.users), task.assignedTo)
            ==>
      var k := TaskIndex(old(db.tasks), task.id, GetProjectId(claims)).value;
      && result == Ok
      && db.tasks == old(db.tasks)[k := old(db.tasks)[k].(
           title := task.title, description := task.description, status := task.status,
           priority := task.priority, assignedTo := task.assignedTo, dueDate := DueOrDefault(task.dueDate, now))]
  {
    var pid := GetProjectId(claims);
    var incoming := task.(dueDate := DueOrDefault(task.dueDate, now));
    if incoming.id == 0 {
      if UnknownAssignee(db.users, incoming.assignedTo) {
        return ServerError;
      }
      var created := incoming.(id := db.nextTaskId, projectId := pid);
      TasksInsert(db.tasks, db.nextTaskId, created);
      AssigneesAddTask(db.tasks, db.users, created);
      db.tasks := db.tasks + [created];
      db.nextTaskId := db.nextTaskId + 1;
      return Ok;
    }
    match TaskIndex(db.tasks, incoming.id, pid) {
      case None =>
        return NotFound;
      case Some(k) =>
        if UnknownAssignee(db.users, incoming.assignedTo) {
          return ServerError;
        }
        var existing := db.tasks[k];
        existing := existing.(title := incoming.title, description := incoming.description,
          status := incoming.status, priority := incoming.priority, assignedTo := incoming.assignedTo);
        if incoming.dueDate != MinValue {
          existing := existing.(dueDate := incoming.dueDate);
        }
        TasksUpdate(db.tasks, db.nextTaskId, k, existing);
        AssigneesSetTask(db.tasks, db.users, k, existing);
        OtherProjectsKept(db.tasks, k, existing, pid);
        db.tasks := db.tasks[k := existing];
        return Ok;
    }
  }

  /** Overwriting a row of project `pid` keeps every row of the other projects. */
  lemma OtherProjectsKept(tasks: seq<TaskItem>, k: nat, t: TaskItem, pid: int)
    requires k < |tasks| && tasks[k].projectId == pid
    ensures forall x :: x in tasks && x.projectId != pid ==> x in tasks[k := t]
  {
    forall x | x in tasks && x.projectId != pid ensures x in tasks[k := t] {
      var j :| 0 <= j < |tasks| && tasks[j] == x;
      assert tasks[k := t][j] == x;
    }
  }

  // ---------------------------------------------------------------------------
  // 4. DeleteTask
  // ---------------------------------------------------------------------------

  /** The Tasks table after `DeleteTask(id)` by a member of project `pid`. */
  function AfterDelete(tasks: seq<TaskItem>, id: int, pid: int): seq<TaskItem> {
    match TaskIndex(tasks, id, pid)
    case None => tasks
    case Some(k) => tasks[..k] + tasks[k + 1..]
  }

  /** With distinct keys, a delete removes exactly the task with that id when it is in the caller's project. */
  lemma DeleteTaskEffect(tasks: seq<TaskItem>, id: int, pid: int)
    requires DistinctBy(tasks, KeyOfTask)
    ensures forall t :: t in AfterDelete(tasks, id, pid) <==> t in tasks && !(t.id == id && t.projectId == pid)
    ensures |AfterDelete(tasks, id, pid)| == |tasks| - (if exists t :: t in tasks && t.id == id && t.projectId == pid then 1 else 0)
  {
    match TaskIndex(tasks, id, pid)
    case None =>
    case Some(k) =>
      RemoveAtMembers(tasks, k, KeyOfTask);
      forall t | t in tasks && t.id == id ensures t == tasks[k] {
        var j :| 0 <= j < |tasks| && tasks[j] == t;
        assert KeyOfTask(tasks[j]) == KeyOfTask(tasks[k]);
      }
  }

  /** `DeleteTask(id)`: removes that task of the caller's project, or answers NotFound. */
  method DeleteTask(db: AppDbContext, claims: seq<Claim>, id: int) returns (result: ActionResult)
    requires db.Valid() && NumericClaim(claims, ProjectIdClaim)
    modifies db
    ensures db.Valid()
    ensures db.users == old(db.users) && db.projects == old(db.projects)
    ensures db.nextTaskId == old(db.nextTaskId) && db.nextUserId == old(db.nextUserId) && db.nextProjectId == old(db.nextProjectId)
    ensures db.tasks == AfterDelete(old(db.tasks), id, GetProjectId(claims))
    ensures result == (if TaskIndex(old(db.tasks), id, GetProjectId(claims)).Some? then Ok else NotFound)
  {
    var pid := GetProjectId(claims);
    match TaskIndex(db.tasks, id, pid) {
      case None =>
        return NotFound;
      case Some(k) =>
        TasksRemove(db.tasks, db.nextTaskId, k);
        AssigneesFewerTasks(db.tasks, db.tasks[..k] + db.tasks[k + 1..], db.users);
        db.tasks := db.tasks[..k] + db.tasks[k + 1..];
        return Ok;
    }
  }

  // ---------------------------------------------------------------------------
  // 5. GetTaskStats: open tasks grouped by assignee
  // ---------------------------------------------------------------------------

  datatype StatRow = StatRow(name: string, email: string, count: nat)

  function OpenIn(pid: int): TaskItem -> bool {
    (t: TaskItem) => t.projectId == pid && t.status != "Completed"
  }

  /** The grouping key of a task: its assigned user entity, or none. */
  function AssigneeOf(users: seq<User>): TaskItem -> Option<User> {
    (t: TaskItem) => AssignedUser(users, t.assignedTo)
  }

  /** `GroupBy(t => t.AssignedUser)` over the project's open tasks, groups in order of first occurrence. */
  function WorkloadGroups(tasks: seq<TaskItem>, users: seq<User>, pid: int): seq<(Option<User>, nat)> {
    GroupCount(Select(Where(tasks, OpenIn(pid)), AssigneeOf(users)))
  }

  function StatRowOf(group: (Option<User>, nat)): (r: StatRow)
    ensures group.0.None? ==> r.name == "Unassigned" && r.email == ""
    ensures group.0.Some? ==> r.name == group.0.value.fullName && r.email == group.0.value.email
    ensures r.count == group.1
  {
    match group.0
    case None => StatRow("Unassigned", "", group.1)
    case Some(u) => StatRow(u.fullName, u.email, group.1)
  }

  /** `GetTaskStats()`: one row per assignee group of the caller's project's open tasks. */
  function GetTaskStats(tasks: seq<TaskItem>, users: seq<User>, claims: seq<Claim>): (rows: seq<StatRow>)
    requires NumericClaim(claims, ProjectIdClaim)
  {
    Select(WorkloadGroups(tasks, users, GetProjectId(claims)), StatRowOf)
  }

  /** The number of open tasks of project `pid` whose assignee is `key`. */
  function Workload(tasks: seq<TaskItem>, users: seq<User>, pid: int, key: Option<User>): nat {
    |Where(tasks, KeepWithImage(OpenIn(pid), AssigneeOf(users), key))|
  }

  function SumCounts(rows: seq<StatRow>): nat {
    if rows == [] then 0 else SumCounts(rows[..|rows| - 1]) + rows[|rows| - 1].count
  }

  /**
   * Each row is one assignee group, the groups are distinct and cover exactly
   * the assignees of the project's open tasks, and each count is that
   * assignee's number of open tasks.
   */
  lemma GetTaskStatsCorrect(tasks: seq<TaskItem>, users: seq<User>, claims: seq<Claim>)
    requires NumericClaim(claims, ProjectIdClaim)
    ensures var pid, groups := GetProjectId(claims), WorkloadGroups(tasks, users, GetProjectId(claims));
      && DistinctKeys(groups)
      && (forall key :: key in Keys(groups) <==>
            exists t :: t in tasks && OpenIn(pid)(t) && AssignedUser(users, t.assignedTo) == key)
      && |GetTaskStats(tasks, users, claims)| == |groups|
      && (forall i :: 0 <= i < |groups| ==>
            GetTaskStats(tasks, users, claims)[i] == StatRowOf((groups[i].0, Workload(tasks, users, pid, groups[i].0))))
  {
    var pid := GetProjectId(claims);
    var open := Where(tasks, OpenIn(pid));
    var keys := Select(open, AssigneeOf(users));
    GroupCountCorrect(keys);
    SelectMembers(open, AssigneeOf(users));
    var groups := GroupCount(keys);
    forall i | 0 <= i < |groups|
      ensures groups[i].1 == Workload(tasks, users, pid, groups[i].0)
    {
      SelectWhereCount(tasks, OpenIn(pid), AssigneeOf(users), groups[i].0);
    }
  }

  lemma {:induction false} SumCountsTotal(groups: seq<(Option<User>, nat)>)
    ensures SumCounts(Select(groups, StatRowOf)) == Total(groups)
    decreases |groups|
  {
    if groups != [] {
      var init := groups[..|groups| - 1];
      SumCountsTotal(init);
      assert Select(groups, StatRowOf)[..|groups| - 1] == Select(init, StatRowOf);
    }
  }

  /** The counts add up to the number of open tasks of the caller's project. */
  lemma GetTaskStatsTotal(tasks: seq<TaskItem>, users: seq<User>, claims: seq<Claim>)
    requires NumericClaim(claims, ProjectIdClaim)
    ensures SumCounts(GetTaskStats(tasks, users, claims)) == |Where(tasks, OpenIn(GetProjectId(claims)))|
  {
    var pid := GetProjectId(claims);
    var keys := Select(Where(tasks, OpenIn(pid)), AssigneeOf(users));
    SumCountsTotal(GroupCount(keys));
    GroupCountTotal(keys);
  }

  /** A completed task, or a task of another project, does not change the caller's statistics. */
  lemma GetTaskStatsIgnores(tasks: seq<TaskItem>, users: seq<User>, claims: seq<Claim>, t: TaskItem)
    requires NumericClaim(claims, ProjectIdClaim)
    requires t.status == "Completed" || t.projectId != GetProjectId(claims)
    ensures GetTaskStats(tasks + [t], users, claims) == GetTaskStats(tasks, users, claims)
  {
    var pid := GetProjectId(claims);
    assert !OpenIn(pid)(t);
    WhereAppend(tasks, t, OpenIn(pid));
    assert Where(tasks + [t], OpenIn(pid)) == Where(tasks, OpenIn(pid));
  }

  // ---------------------------------------------------------------------------
  // 6. UpdateProjectName
  // ---------------------------------------------------------------------------

  /** The Projects table after an admin renames project `pid`: a blank name changes nothing. */
  function Renamed(projects: seq<Project>, pid: int, newName: string): seq<Project> {
    match ProjectIndex(projects, pid)
    case None => projects
    case Some(k) => if IsNullOrWhiteSpace(newName) then projects else projects[k := projects[k].(name := newName)]
  }

  /** A rename touches only the name of the project with that key, and only with a non-blank name. */
  lemma RenamedEffect(projects: seq<Project>, pid: int, newName: string)
    requires DistinctBy(projects, KeyOfProject)
    ensures |Renamed(projects, pid, newName)| == |projects|
    ensures forall j :: 0 <= j < |projects| ==>
      Renamed(projects, pid, newName)[j] ==
        if projects[j].id == pid && !IsNullOrWhiteSpace(newName) then projects[j].(name := newName) else projects[j]
  {
    match ProjectIndex(projects, pid)
    case None =>
    case Some(k) =>
      forall j | 0 <= j < |projects| && projects[j].id == pid ensures j == k {
        assert KeyOfProject(projects[j]) == KeyOfProject(projects[k]);
      }
  }

  /** `UpdateProjectName(newName)`: admins rename their own project; everyone else is refused. */
  method UpdateProjectName(db: AppDbContext, claims: seq<Claim>, newName: string) returns (result: ActionResult)
    requires db.Valid() && NumericClaim(claims, ProjectIdClaim)
    modifies db
    ensures db.Valid()
    ensures db.tasks == old(db.tasks) && db.users == old(db.users)
    ensures db.nextTaskId == old(db.nextTaskId) && db.nextUserId == old(db.nextUserId) && db.nextProjectId == old(db.nextProjectId)
    ensures !IsAdmin(claims) ==> result == Forbid && db.projects == old(db.projects)
    ensures IsAdmin(claims) ==> result == RedirectToIndex && db.projects == Renamed(old(db.projects), GetProjectId(claims), newName)
  {
    var pid := GetProjectId(claims);
    if !IsAdmin(claims) {
      return Forbid;
    }
    match ProjectIndex(db.projects, pid) {
      case None =>
      case Some(k) =>
        if !IsNullOrWhiteSpace(newName) {
          ProjectsUpdate(db.projects, db.nextProjectId, k, db.projects[k].(name := newName));
          MembersSetProject(db.users, db.projects, k, db.projects[k].(name := newName));
          db.projects := db.projects[k := db.projects[k].(name := newName)];
        }
    }
    return RedirectToIndex;
  }

  // ---------------------------------------------------------------------------
  // 7. DeleteProject
  // ---------------------------------------------------------------------------

  function TaskOutside(pid: int): TaskItem -> bool {
    (t: TaskItem) => t.projectId != pid
  }

  function UserOutside(pid: int): User -> bool {
    (u: User) => u.projectId != pid
  }

  /** The three tables, as one value. */
  datatype Tables = Tables(tasks: seq<TaskItem>, users: seq<User>, projects: seq<Project>)

  /** The tables after an admin of project `pid` deletes it: nothing changes when the project is not found. */
  function AfterDeleteProject(db: Tables, pid: int): Tables {
    match ProjectIndex(db.projects, pid)
    case None => db
    case Some(k) =>
      Tables(Where(db.tasks, TaskOutside(pid)), Where(db.users, UserOutside(pid)), db.projects[..k] + db.projects[k + 1..])
  }

  /**
   * Deleting an existing project removes exactly its tasks, its members and
   * its own row; every row of another project stays.
   */
  lemma DeleteProjectEffect(db: Tables, pid: int)
    requires DistinctBy(db.projects, KeyOfProject)
    ensures var r, found := AfterDeleteProject(db, pid), exists p :: p in db.projects && p.id == pid;
      && (forall t :: t in r.tasks <==> t in db.tasks && !(found && t.projectId == pid))
      && (forall u :: u in r.users <==> u in db.users && !(found && u.projectId == pid))
      && (forall p :: p in r.projects <==> p in db.projects && p.id != pid)
  {
    match ProjectIndex(db.projects, pid)
    case None =>
    case Some(k) =>
      RemoveAtMembers(db.projects, k, KeyOfProject);
  }

  /**
   * The project exists and a task of another project is assigned to one of its
   * members. Those tasks are not loaded, so nothing clears their assignee: the
   * foreign key of `AssignedTo` refuses the removal of the member.
   */
  predicate DeleteBlocked(db: Tables, pid: int) {
    && ProjectIndex(db.projects, pid).Some?
    && exists t, u :: t in db.tasks && u in db.users && t.projectId != pid && u.projectId == pid && t.assignedTo == Some(u.id)
  }

  /** Deleting a project that nothing blocks keeps every table's keys and both foreign keys valid. */
  lemma DeleteProjectKeepsKeys(db: Tables, pid: int, nextTaskId: int, nextUserId: int, nextProjectId: int)
    requires TasksValid(db.tasks, nextTaskId) && UsersValid(db.users, nextUserId) && ProjectsValid(db.projects, nextProjectId)
    requires AssigneesStored(db.tasks, db.users) && MembersStored(db.users, db.projects) && !DeleteBlocked(db, pid)
    ensures var r := AfterDeleteProject(db, pid);
      && TasksValid(r.tasks, nextTaskId) && UsersValid(r.users, nextUserId) && ProjectsValid(r.projects, nextProjectId)
      && AssigneesStored(r.tasks, r.users) && MembersStored(r.users, r.projects)
  {
    match ProjectIndex(db.projects, pid)
    case None =>
    case Some(k) =>
      TasksFilter(db.tasks, nextTaskId, TaskOutside(pid));
      UsersFilter(db.users, nextUserId, UserOutside(pid));
      ProjectsRemove(db.projects, nextProjectId, k);
      var tasks, users := Where(db.tasks, TaskOutside(pid)), Where(db.users, UserOutside(pid));
      forall t | t in tasks && t.assignedTo.Some? ensures exists u :: u in users && u.id == t.assignedTo.value {
        var u :| u in db.users && u.id == t.assignedTo.value;
        assert u.projectId != pid;
        assert u in users;
      }
      forall u | u in users ensures exists p :: p in db.projects[..k] + db.projects[k + 1..] && p.id == u.projectId {
        var p :| p in db.projects && p.id == u.projectId;
        assert p.id != db.projects[k].id;
      }
  }

  /**
   * `DeleteProject()`: an admin's project is removed with all its tasks and
   * members, and the caller is signed out whether or not the project was found.
   * When a task of another project is still assigned to a member, the commit
   * fails before the sign-out and nothing changes.
   */
  method DeleteProject(db: AppDbContext, claims: seq<Claim>) returns (result: ActionResult)
    requires db.Valid() && NumericClaim(claims, ProjectIdClaim)
    modifies db
    ensures db.Valid()
    ensures db.nextTaskId == old(db.nextTaskId) && db.nextUserId == old(db.nextUserId) && db.nextProjectId == old(db.nextProjectId)
    ensures !IsAdmin(claims) ==>
      result == Forbid && db.tasks == old(db.tasks) && db.users == old(db.users) && db.projects == old(db.projects)
    ensures IsAdmin(claims) && DeleteBlocked(Tables(old(db.tasks), old(db.users), old(db.projects)), GetProjectId(claims)) ==>
      result == ServerError && db.tasks == old(db.tasks) && db.users == old(db.users) && db.projects == old(db.projects)
    ensures IsAdmin(claims) && !DeleteBlocked(Tables(old(db.tasks), old(db.users), old(db.projects)), GetProjectId(claims)) ==>
      && result == SignOutAndRedirectToRegister
      && Tables(db.tasks, db.users, db.projects) == AfterDeleteProject(Tables(old(db.tasks), old(db.users), old(db.projects)), GetProjectId(claims))
  {
    var pid := GetProjectId(claims);
    if !IsAdmin(claims) {
      return Forbid;
    }
    if DeleteBlocked(Tables(db.tasks, db.users, db.projects), pid) {
      return ServerError;
    }
    var after := AfterDeleteProject(Tables(db.tasks, db.users, db.projects), pid);
    DeleteProjectKeepsKeys(Tables(db.tasks, db.users, db.projects), pid, db.nextTaskId, db.nextUserId, db.nextProjectId);
    db.tasks, db.users, db.projects := after.tasks, after.users, after.projects;
    return SignOutAndRedirectToRegister;
  }

  // ---------------------------------------------------------------------------
  // 8. GetMyNotifications
  // ---------------------------------------------------------------------------

  datatype Notification = Notification(title: string, dueDate: DateTime, isOverdue: bool, isDueToday: bool)

  /** Open tasks assigned to the user that are overdue, due today or due tomorrow (any project). */
  function DueSoon(userId: int, today: DateTime): TaskItem -> bool {
    (t: TaskItem) =>
      && t.assignedTo == Some(userId) && t.status != "Completed"
      && (t.dueDate < today || t.dueDate == today || t.dueDate == AddDays(today, 1))
  }

  function NotificationOf(today: DateTime): TaskItem -> Notification {
    (t: TaskItem) => Notification(t.title, t.dueDate, t.dueDate < today, t.dueDate == today)
  }

  function NotificationDue(n: Notification): int {
    n.dueDate
  }

  /** The notifications of user `uid`: its tasks due by tomorrow, earliest first. */
  function NotificationsFor(tasks: seq<TaskItem>, uid: int, today: DateTime): (r: seq<Notification>)
    ensures SortedBy(r, NotificationDue)
    ensures |r| == |Where(tasks, DueSoon(uid, today))|
    ensures multiset(r) == multiset(Select(Where(tasks, DueSoon(uid, today)), NotificationOf(today)))
    ensures forall n :: n in r ==>
      exists t :: t in tasks && DueSoon(uid, today)(t) && n == NotificationOf(today)(t)
    ensures forall t :: t in tasks && DueSoon(uid, today)(t) ==> NotificationOf(today)(t) in r
    ensures forall n :: n in r ==>
      && (n.isOverdue <==> n.dueDate < today)
      && (n.isDueToday <==> n.dueDate == today)
      && n.dueDate <= AddDays(today, 1)
  {
    var selected := Where(tasks, DueSoon(uid, today));
    var rows := Select(selected, NotificationOf(today));
    SelectMembers(selected, NotificationOf(today));
    OrderByMembers(rows, NotificationDue);
    OrderBy(rows, NotificationDue)
  }

  /** `GetMyNotifications()` on the day `today` (midnight, in ticks). */
  function GetMyNotifications(tasks: seq<TaskItem>, claims: seq<Claim>, today: DateTime): (r: seq<Notification>)
    requires NumericClaim(claims, NameIdentifierClaim)
    ensures SortedBy(r, NotificationDue)
    ensures |r| == |Where(tasks, DueSoon(GetUserId(claims), today))|
    ensures multiset(r) == multiset(Select(Where(tasks, DueSoon(GetUserId(claims), today)), NotificationOf(today)))
    ensures forall n :: n in r ==>
      exists t :: t in tasks && DueSoon(GetUserId(claims), today)(t) && n == NotificationOf(today)(t)
    ensures forall t :: t in tasks && DueSoon(GetUserId(claims), today)(t) ==> NotificationOf(today)(t) in r
    ensures forall n :: n in r ==>
      && (n.isOverdue <==> n.dueDate < today)
      && (n.isDueToday <==> n.dueDate == today)
      && n.dueDate <= AddDays(today, 1)
  {
    NotificationsFor(tasks, GetUserId(claims), today)
  }

  /** Each notification occurs once per task of the table that is due soon and gives that notification. */
  lemma GetMyNotificationsCount(tasks: seq<TaskItem>, claims: seq<Claim>, today: DateTime, n: Notification)
    requires NumericClaim(claims, NameIdentifierClaim)
    ensures multiset(GetMyNotifications(tasks, claims, today))[n] ==
      |Where(tasks, KeepWithImage(DueSoon(GetUserId(claims), today), NotificationOf(today), n))|
  {
    SelectWhereCount(tasks, DueSoon(GetUserId(claims), today), NotificationOf(today), n);
  }

  // ---------------------------------------------------------------------------
  // 9. GetAdminOverdueTasks
  // ---------------------------------------------------------------------------

  datatype OverdueRow = OverdueRow(title: string, dueDate: DateTime, assignedToName: string, assignedToEmail: string)

  datatype OverdueResponse = Unauthorized | OverdueJson(rows: seq<OverdueRow>)

  function OverdueIn(pid: int, today: DateTime): TaskItem -> bool {
    (t: TaskItem) => t.projectId == pid && t.status != "Completed" && t.dueDate < today
  }

  function OverdueRowOf(users: seq<User>): TaskItem -> OverdueRow {
    (t: TaskItem) =>
      var assignee := AssignedUser(users, t.assignedTo);
      OverdueRow(t.title, t.dueDate,
        match assignee case None => "Unassigned" case Some(u) => u.fullName,
        match assignee case None => "" case Some(u) => u.email)
  }

  /** `GetAdminOverdueTasks()`: the project's open tasks due before `today`, for admins only. */
  function GetAdminOverdueTasks(tasks: seq<TaskItem>, users: seq<User>, claims: seq<Claim>, today: DateTime): (r: OverdueResponse)
    requires IsAdmin(claims) ==> NumericClaim(claims, ProjectIdClaim)
    ensures r.Unauthorized? <==> !IsAdmin(claims)
    ensures IsAdmin(claims) ==>
      && |r.rows| == |Where(tasks, OverdueIn(GetProjectId(claims), today))|
      && (forall i :: 0 <= i < |r.rows| ==>
            r.rows[i] == OverdueRowOf(users)(Where(tasks, OverdueIn(GetProjectId(claims), today))[i]))
      && (forall row :: row in r.rows ==>
            exists t :: t in tasks && OverdueIn(GetProjectId(claims), today)(t) && row == OverdueRowOf(users)(t))
      && (forall t :: t in tasks && OverdueIn(GetProjectId(claims), today)(t) ==> OverdueRowOf(users)(t) in r.rows)
  {
    if !IsAdmin(claims) then Unauthorized
    else
      var selected := Where(tasks, OverdueIn(GetProjectId(claims), today));
      SelectMembers(selected, OverdueRowOf(users));
      OverdueJson(Select(selected, OverdueRowOf(users)))
  }

  /** Each overdue row occurs once per overdue task of the caller's project that gives that row. */
  lemma GetAdminOverdueTasksCount(tasks: seq<TaskItem>, users: seq<User>, claims: seq<Claim>, today: DateTime, row: OverdueRow)
    requires IsAdmin(claims) && NumericClaim(claims, ProjectIdClaim)
    ensures multiset(GetAdminOverdueTasks(tasks, users, claims, today).rows)[row] ==
      |Where(tasks, KeepWithImage(OverdueIn(GetProjectId(claims), today), OverdueRowOf(users), row))|
  {
    SelectWhereCount(tasks, OverdueIn(GetProjectId(claims), today), OverdueRowOf(users), row);
  }
}

=== FILE: text.dfy ===
/**
 * String helpers of the .NET and JavaScript runtimes that the controllers and the
 * client script rely on: white-space tests, ASCII case mapping, substring search,
 * and rendering and parsing of integer numerals.
 */
module Text {

  /** .NET `Char.IsWhiteSpace`: the Unicode White_Space characters. */
  predicate IsWhiteSpace(c: char) {
    var n := c as int;
    (0x09 <= n <= 0x0D) || n == 0x20 || n == 0x85 || n == 0xA0 || n == 0x1680
    || (0x2000 <= n <= 0x200A) || n == 0x2028 || n == 0x2029 || n == 0x202F
    || n == 0x205F || n == 0x3000
  }

  /**
   * .NET `String.IsNullOrWhiteSpace`. A null argument behaves exactly like "",
   * so the model passes "" for it.
   */
  predicate IsNullOrWhiteSpace(s: string)
    ensures IsNullOrWhiteSpace(s) <==> forall i :: 0 <= i < |s| ==> IsWhiteSpace(s[i])
  {
    s == [] || (IsWhiteSpace(s[0]) && IsNullOrWhiteSpace(s[1..]))
  }

  function LowerChar(c: char): char {
    if 'A' <= c <= 'Z' then (c as int - 'A' as int + 'a' as int) as char else c
  }

  function UpperChar(c: char): char {
    if 'a' <= c <= 'z' then (c as int - 'a' as int + 'A' as int) as char else c
  }

  /** `ToLower()`: SQLite's lower() and the invariant culture agree on ASCII letters. */
  function ToLower(s: string): (r: string)
    ensures |r| == |s|
    ensures forall i :: 0 <= i < |s| ==> r[i] == LowerChar(s[i])
  {
    seq(|s|, i requires 0 <= i < |s| => LowerChar(s[i]))
  }

  /** `string.Equals(a, b, StringComparison.OrdinalIgnoreCase)`: equal up to the case of ASCII letters. */
  predicate EqualsIgnoreCase(a: string, b: string) {
    |a| == |b| && forall i :: 0 <= i < |a| ==> LowerChar(a[i]) == LowerChar(b[i])
  }

  /** `ToUpper()` / `toUpperCase()` on ASCII letters. */
  function ToUpper(s: string): (r: string)
    ensures |r| == |s|
    ensures forall i :: 0 <= i < |s| ==> r[i] == UpperChar(s[i])
  {
    seq(|s|, i requires 0 <= i < |s| => UpperChar(s[i]))
  }

  /** `haystack.Contains(needle)`: needle occurs as a contiguous run of haystack. */
  predicate Contains(haystack: string, needle: string) {
    exists i | 0 <= i <= |haystack| - |needle| :: OccursAt(haystack, needle, i)
  }

  predicate OccursAt(haystack: string, needle: string, i: nat) {
    i + |needle| <= |haystack| && haystack[i..i + |needle|] == needle
  }

  // ---------------------------------------------------------------------------
  // Numerals in radix 2..36, digits 0-9 then letters (either case when read).
  // ---------------------------------------------------------------------------

  /** The lower-case digit character for d, as `Number.prototype.toString` and `Int32.ToString` write it. */
  function DigitChar(d: nat): (c: char)
    requires d < 36
  {
    if d < 10 then ('0' as int + d) as char else ('a' as int + d - 10) as char
  }

  /** The value of a digit character, or 36 when c is not a digit in any radix. */
  function DigitValue(c: char): (d: nat)
    ensures d <= 36
  {
    if '0' <= c <= '9' then c as int - '0' as int
    else if 'a' <= c <= 'z' then c as int - 'a' as int + 10
    else if 'A' <= c <= 'Z' then c as int - 'A' as int + 10
    else 36
  }

  predicate IsLowerHex(c: char) {
    ('0' <= c <= '9') || ('a' <= c <= 'f')
  }

  predicate IsUpperHex(c: char) {
    ('0' <= c <= '9') || ('A' <= c <= 'F')
  }

  predicate IsDigitIn(c: char, radix: nat) {
    DigitValue(c) < radix
  }

  predicate AllDigitsIn(s: string, radix: nat) {
    forall i :: 0 <= i < |s| ==> IsDigitIn(s[i], radix)
  }

  /** The number a string of digits denotes (most significant digit first). */
  function NumeralValue(s: string, radix: nat): nat
  {
    if s == [] then 0 else NumeralValue(s[..|s| - 1], radix) * radix + DigitValue(s[|s| - 1])
  }

  /** The shortest numeral for n in the given radix, lower-case letters. */
  function Numeral(n: nat, radix: nat): (s: string)
    requires 2 <= radix <= 36
    ensures |s| >= 1 && AllDigitsIn(s, radix)
    decreases n
  {
    if n < radix then [DigitChar(n)]
    else
      DivShrinks(n, radix);
      Numeral(n / radix, radix) + [DigitChar(n % radix)]
  }

  lemma DivShrinks(n: nat, radix: nat)
    requires 2 <= radix <= n
    ensures 1 <= n / radix < n && n % radix < radix
    ensures n == (n / radix) * radix + n % radix
  {
    var q := n / radix;
    assert n == q * radix + n % radix;
    MulMonotone(1, radix, q);
    MulMonotone(2, radix, q);
  }

  lemma DigitRoundTrip(d: nat)
    requires d < 36
    ensures DigitValue(DigitChar(d)) == d
  {
  }

  /** Reading back a rendered numeral gives the number. */
  lemma {:induction false} NumeralRoundTrip(n: nat, radix: nat)
    requires 2 <= radix <= 36
    ensures NumeralValue(Numeral(n, radix), radix) == n
    decreases n
  {
    var s := Numeral(n, radix);
    if n < radix {
      DigitRoundTrip(n);
      assert s[..0] == [];
    } else {
      DivShrinks(n, radix);
      var q, d := n / radix, n % radix;
      var t := Numeral(q, radix);
      assert s == t + [DigitChar(d)];
      assert s[..|s| - 1] == t;
      NumeralRoundTrip(q, radix);
      DigitRoundTrip(d);
      calc {
        NumeralValue(s, radix);
        NumeralValue(t, radix) * radix + DigitValue(DigitChar(d));
        q * radix + d;
        n;
      }
    }
  }

  /** Zeros in front of a numeral do not change its value. */
  lemma {:induction false} LeadingZeros(z: string, s: string, radix: nat)
    requires forall i :: 0 <= i < |z| ==> z[i] == '0'
    ensures NumeralValue(z + s, radix) == NumeralValue(s, radix)
    decreases |s|
  {
    if s == [] {
      ZerosValue(z, radix);
      assert z + s == z;
    } else {
      LeadingZeros(z, s[..|s| - 1], radix);
      assert (z + s)[..|z + s| - 1] == z + s[..|s| - 1];
    }
  }

  lemma {:induction false} ZerosValue(z: string, radix: nat)
    requires forall i :: 0 <= i < |z| ==> z[i] == '0'
    ensures NumeralValue(z, radix) == 0
    decreases |z|
  {
    if z != [] {
      ZerosValue(z[..|z| - 1], radix);
    }
  }

  /** Upper-casing a numeral does not change its value. */
  lemma {:induction false} UpperNumeral(s: string, radix: nat)
    ensures NumeralValue(ToUpper(s), radix) == NumeralValue(s, radix)
    decreases |s|
  {
    if s != [] {
      UpperNumeral(s[..|s| - 1], radix);
      assert ToUpper(s)[..|s| - 1] == ToUpper(s[..|s| - 1]);
    }
  }

  function Pow(b: nat, k: nat): nat {
    if k == 0 then 1 else b * Pow(b, k - 1)
  }

  /** A number below radix^k needs at most k digits. */
  lemma {:induction false} NumeralLength(n: nat, radix: nat, k: nat)
    requires 2 <= radix <= 36 && 1 <= k && n < Pow(radix, k)
    ensures |Numeral(n, radix)| <= k
    decreases k
  {
    if n >= radix {
      assert n / radix < Pow(radix, k - 1) by {
        if n / radix >= Pow(radix, k - 1) {
          assert n >= (n / radix) * radix;
          MulMonotone(Pow(radix, k - 1), n / radix, radix);
        }
      }
      NumeralLength(n / radix, radix, k - 1);
    }
  }

  lemma MulMonotone(a: nat, b: nat, c: nat)
    requires a <= b
    ensures a * c <= b * c
  {
  }

  // ---------------------------------------------------------------------------
  // .NET `Int32.ToString()` and `Int32.Parse` on the numerals ToString writes.
  // ---------------------------------------------------------------------------

  /** `n.ToString()` in the invariant culture: an optional '-' and decimal digits. */
  function IntToString(n: int): (s: string)
    ensures |s| >= 1
  {
    if n < 0 then "-" + Numeral(-n, 10) else Numeral(n, 10)
  }

  /** The numerals `int.Parse` is applied to here: an optional '-' and at least one decimal digit. */
  predicate IsIntLiteral(s: string) {
    (|s| >= 1 && s[0] != '-' && AllDigitsIn(s, 10))
    || (|s| >= 2 && s[0] == '-' && AllDigitsIn(s[1..], 10))
  }

  function ParseInt(s: string): int
    requires IsIntLiteral(s)
  {
    if s[0] == '-' then -(NumeralValue(s[1..], 10) as int) else NumeralValue(s, 10)
  }

  /** `int.Parse(n.ToString()) == n`, the round trip every id claim goes through. */
  lemma IntRoundTrip(n: int)
    ensures IsIntLiteral(IntToString(n))
    ensures ParseInt(IntToString(n)) == n
  {
    if n < 0 {
      NegativeRoundTrip(n);
    } else {
      NonNegativeRoundTrip(n);
    }
  }

  lemma NonNegativeRoundTrip(n: nat)
    ensures IsIntLiteral(Numeral(n, 10)) && ParseInt(Numeral(n, 10)) == n
  {
    var t := Numeral(n, 10);
    assert IsDigitIn(t[0], 10);
    assert t[0] != '-';
    NumeralRoundTrip(n, 10);
  }

  lemma NegativeRoundTrip(n: int)
    requires n < 0
    ensures IsIntLiteral(IntToString(n)) && ParseInt(IntToString(n)) == n
  {
    var t := Numeral(-n, 10);
    var s := "-" + t;
    assert s[0] == '-' && s[1..] == t;
    NumeralRoundTrip(-n, 10);
  }
}
